=== FILE: README.md ===
# Shop backend core in Dafny

A model of the sequential logic under the request handlers of an
Express/Mongoose shop backend. It covers:

- the **cart ledger**: add, remove an entry, set a quantity;
- **checkout and stock reconciliation**: the out-of-stock filter, the
  cash-on-delivery order, the card-payment order with its payment line
  items, and the payment callback;
- **wishlists**: create, add to the oldest list, move between lists,
  remove a product, delete a list;
- **page arithmetic** of the product and order listings;
- the **request validators** of the cart, order, wishlist, admin and
  review routes.

The database is an immutable `Store` value:

- products and users are maps keyed by id;
- orders are a map keyed by id;
- wishlists are a sequence in insertion order;
- a counter stands in for fresh document ids.

Every handler is a pure function from a store and the request's values to
either an `Error` or a new store. Every validator is a function that
returns the violations it reports, in chain order. A request passes a
validator when that sequence is empty.

JavaScript's value rules are explicit where the handlers depend on them:

- a number is `Finite(n)` or `NaN`;
- `Number(x) || d` falls back on both 0 and NaN;
- every comparison with NaN is false;
- a request field is absent, empty text, the text of an integer, or other
  text;
- `trim` removes the ECMAScript white-space and line-terminator
  characters.

Prices are integers in currency units, so a payment item's unit amount is
the price times 100.

Modules, in dependency order:

| module | file | content |
|---|---|---|
| `Wrappers` | wrappers.dfy | `Option`, `Result` |
| `JsValues` | jsvalues.dfy | numbers, NaN, request parameters, `trim` |
| `Seqs` | seqs.dfy | counting, `Set`-style de-duplication, filtering |
| `Store` | store.dfy | the entities, the store, handler errors |
| `Checks` | checks.dfy | express-validator building blocks |
| `Pagination` | pagination.dfy | page/limit defaults, skip, page count |
| `Cart` | cart.dfy | the cart ledger and its three handlers |
| `Stock` | stock.dfy | resolving carts, shortages, clamped decrement |
| `Orders` | orders.dfy | both checkouts and the payment callback |
| `WishLists` | wishlists.dfy | the five wishlist handlers |
| `CartValidation`, `OrderValidation`, `WishListValidation`, `AdminValidation`, `ReviewValidation` | *_validation.dfy | the validators |

In these places the code does something other than what it evidently
means to do, and the model follows the code:

- **Repeated payment confirmation.** A card payment should take its order's
  stock once. The callback has no guard against a repeat; see Findings.
- **Deleting an unknown cart entry.** The delete validator refuses an id
  the cart lacks (`CartValidation.DeleteItemViolations`). The handler
  answers 200 and leaves the cart as it was (`Cart.DeleteFromCart`).
- **Refused requests.** A missing user is answered with 400 "Not
  Authorized", not with an authorization status.
- **Default wishlist.** The delete validator refuses to delete a user's
  only list when it is named "Default", evidently to keep one list per
  user. The code creates that list only when a product is added, and a
  sole list with another name can be deleted
  (`WishListValidation.SoleNamedListIsDeletable`).
- **Moving within one list.** The move validator refuses a move whose
  source and target are the same list. Without it, the handler saves the
  source without the product and then saves a stale copy of the same
  list. Mongoose versions a save that replaces a whole array, so the
  stale save matches no document and fails with a 500. By then the
  product has already left the list (`WishLists.SameListMoveLosesProduct`).
- **Order statuses.** The admin validator admits six status names,
  `Refund` among them. The code that would move an order between them,
  and restock on a refund, is not part of this model.

The cart, order, wishlist and admin validators are not mounted on their
routes. The model states each validator on its own, and lemmas relate
what it accepts to what the handler does. They differ in these places:

- The order validator treats a NaN stock as never short, while the
  handler reads it as 0 (`OrderValidation.NaNStockPassesValidatorOnly`).
- The wishlist validator accepts a name made only of blanks, which the
  handler then fails to save
  (`WishListValidation.BlankNamePassesValidator`).
- The wishlist add validator also runs the move validator's source-list
  check, because the product-id chain is a single object shared by both
  (`WishListValidation.AddProductRefusedForForeignSource`).

The review routes import their validators from
`backend/validation/reviewValidation.js`, which is not part of this
model. The modelled review validators are those of
`backend/middleware/reviewValidation.js`.

## Model

| member | source | states |
|---|---|---|
| Store.StatusCode | backend/controllers/order.js:73-89 | each handler error maps to a 4xx or 5xx status; 500 exactly for a thrown price error or an unexpected fault; 404 exactly for a missing user or missing wishlists |
| Cart.IndexOfProduct | backend/controllers/cart.js:40 | the first entry for the product, or -1 exactly when no entry refers to it |
| Cart.IndexOfEntry | backend/controllers/cart.js:107 | the first entry with that id, or -1 exactly when no entry has it |
| JsValues.TrimStart | backend/middleware/reviewValidation.js:16-18 | drops exactly the leading blanks: what it drops is all blank, and what remains is a suffix that does not start with a blank |
| JsValues.TrimEnd | backend/middleware/reviewValidation.js:16-18 | drops exactly the trailing blanks: what it drops is all blank, and what remains is a prefix that does not end with a blank |
| JsValues.Trim | backend/middleware/reviewValidation.js:16-18 | `.trim()` gives a text with no blank at either end, no longer than the input, made of the input's characters |
| Cart.AddItem | backend/controllers/cart.js:39-46 | the product set grows by the product; a new product goes in front as one unit with the old entries behind it unchanged; for a product already present every entry keeps its id and product, the matched entry gains exactly one unit, and the other entries are unchanged |
| Cart.RemoveEntry | backend/controllers/cart.js:76 | keeps exactly the entries whose id differs; an unknown id leaves the cart unchanged; a known id shortens it |
| Cart.RemoveEntryConcat | backend/controllers/cart.js:76 | the filter distributes over concatenation, so the kept entries stay in cart order |
| Cart.SetQuantity | backend/controllers/cart.js:106-113 | fails exactly for an unknown entry id; otherwise the matching entry gets the quantity and every other entry, and the order, stay as they were |
| Cart.AddItemQuantity | backend/controllers/cart.js:40-46 | adding raises the added product's total quantity by one and leaves every other product's total alone |
| Cart.AddItemWellFormed | backend/controllers/cart.js:40-48 | adding keeps one entry per product, distinct entry ids and positive quantities, and uses a fresh id only for a new product |
| Cart.RemoveEntryWellFormed | backend/controllers/cart.js:76-78 | removing keeps the cart well-formed |
| Cart.SetQuantityWellFormed | backend/controllers/cart.js:96-116 | a quantity of at least 1 keeps the cart well-formed, and only the matched entry changes |
| Cart.AddToCart | backend/controllers/cart.js:23-57 | a missing product id is rejected before the user lookup, and an unknown user next; on success only that user's cart changes, by the add |
| Cart.DeleteFromCart | backend/controllers/cart.js:59-88 | unknown user, then empty cart, are rejected; on success only that user's cart changes, exactly the entries with the id go and the rest keep their order (`RemoveEntry`, with `RemoveEntryConcat`), and an unmatched id succeeds with nothing changed |
| Cart.UpdateCartItem | backend/controllers/cart.js:90-124 | a quantity that compares below 1 (empty text counts as 0) is rejected first, then an unknown user, then an unknown entry; an absent or non-numeric quantity passes the guard and is rejected on save as a 500; otherwise only the matched entry takes the whole-number quantity |
| Cart.AddToCartPreservesValid | backend/controllers/cart.js:39-49 | every user's cart stays well-formed after an add |
| Cart.DeleteFromCartPreservesValid | backend/controllers/cart.js:70-80 | every user's cart stays well-formed after a delete |
| Cart.UpdateCartItemPreservesValid | backend/controllers/cart.js:96-116 | every user's cart stays well-formed after an update: the `< 1` guard and the rejected save together keep every stored quantity a whole number of at least 1 |
| Stock.Resolve | backend/controllers/order.js:71 | populating fails exactly when some entry's product is gone; otherwise each entry is paired with its product, in cart order |
| Stock.ValidateStock | backend/controllers/order.js:11-18 | the short items in cart order: an item is returned exactly when it is in the cart and its quantity exceeds its stock read with NaN as 0 |
| Stock.ShortItemsMembers | backend/controllers/order.js:11-18 | the reference filter keeps exactly the cart items that are short |
| Stock.IsShort | backend/controllers/order.js:12-16 | with a NaN or zero stock any positive quantity is short; with a numeric non-zero stock a non-zero quantity is short exactly when it exceeds the stock; a zero quantity is short only against a negative stock |
| Stock.ShortItemsConcat | backend/controllers/order.js:12-16 | the filter distributes over concatenation, so cart order is kept |
| Stock.Titles | backend/controllers/order.js:85 | the out-of-stock message names each short item's title, in order |
| Stock.ClampedStock | backend/controllers/order.js:120-122 | the new stock is a number and never negative |
| Stock.DecrementLine | backend/controllers/order.js:117-124 | one loop step: a missing product is skipped; otherwise only that product's stock changes, dropping by the quantity (0 read as 1) but not below 0 |
| Stock.Decrement | backend/controllers/order.js:117-125 | no product appears or disappears; products outside the order are untouched; ordered products end with a non-negative numeric stock and nothing else changes about them |
| Stock.DecrementExact | backend/controllers/order.js:117-125 | with non-negative quantities, the line-by-line clamps add up to one clamp of the whole demand on each product |
| Orders.Snapshot | backend/controllers/order.js:92-102 | one line per cart entry, in cart order, holding the product, the quantity and the current price |
| Orders.LinesTotal | backend/controllers/order.js:91-102 | the running total is NaN exactly when some line's price is NaN, and otherwise the sum of price times quantity |
| Orders.OrderTotal | backend/controllers/order.js:91-104 | the order total is NaN exactly when some price is NaN, and otherwise the line sum plus the delivery charge of 10 |
| Orders.Checkout | backend/controllers/order.js:71-89 | rejects an unknown user, an empty cart, a vanished product (as a 500); a resolved cart with any short item is rejected with the titles of all short items, in cart order; accepts exactly the remaining carts |
| Orders.AddOrder | backend/controllers/order.js:61-138 | rejects exactly what the checkout rejects, with nothing written; on success stores a new order that mirrors the cart with its current prices and whose total is the order total (NaN exactly when a price is, otherwise the line sum plus 10), decrements stock, empties only that user's cart, and leaves wishlists alone |
| Orders.AddOrderIsFresh | backend/controllers/order.js:106-115 | a placed order takes a fresh id, so no earlier order is overwritten and the order count grows by one |
| Orders.AddOrderDecrementsExactly | backend/controllers/order.js:83-125 | a well-formed cart with enough stock for every entry is ordered, and every ordered product's stock drops by exactly the ordered quantity, the clamp at 0 never biting |
| Orders.EnoughStockIffCheckout | backend/controllers/order.js:11-18 | for a non-empty cart with positive quantities, the checkout accepts exactly when every entry's product exists and holds at least the entry's quantity |
| Orders.CheckoutLeavesEnoughStock | backend/controllers/order.js:83-89 | an accepted cart with positive quantities asks for no more than each product's stock |
| Orders.ItemName | backend/controllers/order.js:201 | a payment item always has a non-empty name |
| Orders.PaymentItems | backend/controllers/order.js:198-215 | the item list fails exactly when some price is NaN, naming the first such item; otherwise one payment item per cart item, in order |
| Orders.LineItemOf | backend/controllers/order.js:198-214 | one payment item: a non-empty name that is the title when there is one, the price in minor units, and the quantity with 0 read as 1 |
| Orders.AddOrderStripe | backend/controllers/order.js:140-226 | leaves stock, carts and wishlists alone; a failed checkout writes nothing; otherwise an unpaid card order with the cart's snapshot lines and order total is saved, and it stays saved when a NaN price throws afterwards; the answer fails exactly when some price is NaN, with the payment items' error, and otherwise is a session for the new order listing the payment items and then the delivery item |
| Orders.PaymentItemsCharge | backend/controllers/order.js:198-215 | with no zero quantities, the payment items charge 100 times the lines' sum |
| Orders.SessionChargesOrderTotal | backend/controllers/order.js:170-226 | for a well-formed cart, the session charges exactly 100 times the saved order's total |
| Orders.VerifyStripe | backend/controllers/order.js:243-275 | "true" marks the order paid and processing, decrements its lines' stock and empties its owner's cart when it has lines; any other value deletes the order and changes nothing else |
| Orders.VerifyStripeStockNonNegative | backend/controllers/order.js:253-261 | a confirmation leaves the order's products with non-negative stock and every other product untouched |
| Orders.VerifyStripeRepeatDecrementsTwice | backend/controllers/order.js:246-264 | a repeated confirmation decrements the same order's stock a second time |
| Orders.VerifyStripeGuarded | backend/controllers/order.js:246-269 | with the missing guard, a paid order is final, and otherwise the callback behaves as written |
| Orders.VerifyStripeGuardedIdempotent | backend/controllers/order.js:246-269 | the guarded callback is idempotent, so stock is decremented at most once per order |
| Orders.PlaceOrderExample | backend/controllers/order.js:61-138 | 2 units at price 20 with 5 in stock give a total of 50, leave 3 in stock and empty the cart |
| Orders.OutOfStockExample | backend/controllers/order.js:83-89 | 3 units against a stock of 1 are refused, naming the product |
| Pagination.PageOf | backend/controllers/product.js:6 | an absent, zero or non-numeric page is 1; any other integer is kept |
| Pagination.LimitOf | backend/controllers/product.js:8 | an absent, zero or non-numeric limit is 10; any other integer is kept |
| Pagination.CeilDiv | backend/controllers/product.js:24 | the rounded-up quotient: the least multiple count covering the dividend |
| Pagination.Paginate | backend/controllers/product.js:6-24 | skip is (page - 1) times limit, and with a positive limit the page count is the least one whose pages hold every document; with a positive limit the skip is negative exactly when the page is below 1, where the database refuses the listing |
| Pagination.SkipSign | backend/controllers/product.js:6-10 | with a positive limit, (page - 1) times limit is negative exactly for a page below 1 |
| Pagination.HasNextPageIffMoreDocuments | backend/controllers/order.js:48-49 | with a positive limit, there is a next page exactly when some document lies beyond the current page |
| Pagination.HasNextPage | backend/controllers/order.js:49 | with a positive limit, `page < Math.ceil(total / limit)` holds exactly when `page * limit < total` |
| Pagination.ValidPagingBounds | backend/validation/orderValidation.js:65-74 | parameters the listing validators accept give page at least 1, limit 1 to 100, and non-negative skip and page count |
| Seqs.Dedup | backend/controllers/wishList.js:72-74 | the values of the list, each exactly once, and no others |
| Seqs.DedupSnoc | backend/controllers/wishList.js:72-74 | adding a value to a `Set` and listing it appends the value exactly when it was not already there, so first occurrences keep their order |
| Seqs.DedupOfDistinct | backend/controllers/wishList.js:72-74 | de-duplicating a list without duplicates changes nothing |
| Seqs.RemoveAll | backend/controllers/wishList.js:135-137 | drops every occurrence of the value and keeps every other value |
| Seqs.RemoveAllConcat | backend/controllers/wishList.js:135-137 | the filter distributes over concatenation, so the others keep their relative order |
| WishLists.FindOwned | backend/controllers/wishList.js:91-92 | a list with that id and owner, or -1 exactly when the user owns no list with that id |
| WishLists.FindById | backend/controllers/wishList.js:152 | the first list with that id, or -1 exactly when there is none |
| WishLists.Oldest | backend/controllers/wishList.js:66 | the user's list with the least creation time, the earliest stored among equals, or -1 exactly when the user has none |
| WishLists.PostWishList | backend/controllers/wishList.js:3-21 | a name the user already has is refused and a blank one fails; otherwise exactly one new empty list with the trimmed name is appended |
| WishLists.AddProductToWishList | backend/controllers/wishList.js:55-85 | without a product id nothing is written and the answer is a 500; a user with no list gets a new "Default" list holding only the product; otherwise only the oldest list changes, to its de-duplicated products plus the product |
| WishLists.WithProduct | backend/controllers/wishList.js:72-74 | the result holds the product exactly once and no duplicates; it is the old list plus the product when that was absent, and the de-duplicated old list when present |
| WishLists.AddPresentProductIsNoOp | backend/controllers/wishList.js:72-75 | adding a product the oldest list already holds leaves a duplicate-free store unchanged |
| WishLists.MoveProduct | backend/controllers/wishList.js:87-126 | either list missing is a 404 and a product missing from the source a 400, with nothing written; otherwise the product leaves the source; between two lists the move succeeds, the target holds the product exactly once and the flag says whether it was there; within one list the stale second save fails as a 500 after the product has left; no other list changes |
| WishLists.SameListMoveLosesProduct | backend/controllers/wishList.js:91-114 | moving a product from a list to itself answers with a failure and leaves the list without the product |
| WishLists.RemoveProduct | backend/controllers/wishList.js:128-146 | succeeds exactly for a list of the user's, whether or not it holds the product; another list fails as a property read on null; on success every occurrence of the product goes, the other products stay, and only that list changes |
| WishLists.DeleteWishList | backend/controllers/wishList.js:148-165 | a missing or foreign list is refused as "Not Authorized"; otherwise exactly that list is removed and the others keep their order |
| WishLists.PostWishListPreservesValid | backend/controllers/wishList.js:7-14 | creating keeps ids fresh, names unique per user and lists duplicate-free |
| WishLists.AddProductPreservesValid | backend/controllers/wishList.js:62-76 | a successful add keeps the invariant |
| WishLists.MovePreservesValid | backend/controllers/wishList.js:105-114 | every move keeps the invariant, including the same-list move that fails after its first save |
| WishLists.RemoveProductPreservesValid | backend/controllers/wishList.js:134-140 | removing a product keeps the invariant |
| WishLists.DeletePreservesValid | backend/controllers/wishList.js:154-158 | deleting a list keeps the invariant |
| JsValues.TrimPadded | backend/middleware/reviewValidation.js:16-18 | trimming a non-blank text padded with blanks gives back exactly that text |
| CartValidation.AddToCartViolations | backend/validation/cartValidation.js:4-16 | passes exactly when a product id is given and the user exists; a missing id is reported before an unknown user |
| CartValidation.AddToCartValidatorAgrees | backend/validation/cartValidation.js:4-16 | the add validator and the add handler reject the same requests for the same reasons |
| CartValidation.EntryViolations | backend/validation/cartValidation.js:20-27 | passes exactly when the user exists and has an entry with that id; a missing user is a failed check |
| CartValidation.DeleteItemViolations | backend/validation/cartValidation.js:18-29 | passes exactly when the user has an entry with that id |
| CartValidation.DeleteValidatorMeansRemoval | backend/validation/cartValidation.js:18-29 | a delete the validator passes succeeds and shortens the cart |
| CartValidation.UpdateItemViolations | backend/validation/cartValidation.js:31-45 | passes exactly when the entry exists and the quantity is an integer of at least 1; the quantity check is reported exactly when it fails |
| CartValidation.UpdateValidatorMeansUpdate | backend/validation/cartValidation.js:31-45 | an update the validator passes is one the handler carries out |
| OrderValidation.OutOfStockOf | backend/validation/orderValidation.js:5-11 | keeps exactly the items whose quantity exceeds a numeric stock |
| OrderValidation.OutOfStockOfConcat | backend/validation/orderValidation.js:5-11 | the filter distributes over concatenation, so the exceeding items stay in cart order |
| OrderValidation.ShortnessAgreesOnNumericStock | backend/validation/orderValidation.js:7-9 | with a numeric stock, the validator's and the handler's shortage tests agree |
| OrderValidation.ShortnessDivergesOnNaNStock | backend/validation/orderValidation.js:7-9 | with a NaN stock, any positive quantity is short for the handler and never for the validator |
| OrderValidation.Details | backend/validation/orderValidation.js:46-48 | one detail per short item, with its title, the requested amount and the stock |
| OrderValidation.FirstBadEntry | backend/validation/orderValidation.js:34-42 | no failure exactly when every entry's product exists and every quantity is positive; otherwise the fault of the first failing entry, a missing product before a bad quantity |
| OrderValidation.CartCheck | backend/validation/orderValidation.js:20-62 | passes exactly for an existing user with a non-empty orderable cart; a missing user, then an empty cart, then the first bad entry's fault, then the exceeding items in cart order, then a deleted product, each reported only when everything before it passed |
| OrderValidation.AddOrderViolations | backend/validation/orderValidation.js:13-63 | passes exactly when the address is given and 10 to 500 characters and the cart check passes; an absent address reports both address messages |
| OrderValidation.AddOrderValidatorMeansCheckout | backend/validation/orderValidation.js:13-63 | with numeric stocks, a request the validator passes is one the cash-on-delivery handler accepts |
| OrderValidation.NaNStockPassesValidatorOnly | backend/validation/orderValidation.js:44-50 | one unit of a product with NaN stock passes the validator and is refused by the handler |
| OrderValidation.ListingViolations | backend/validation/orderValidation.js:65-80 | passes exactly for an optional integer page of at least 1 and an optional integer limit of 1 to 100, each reported on its own |
| OrderValidation.CallbackViolations | backend/validation/orderValidation.js:82-98 | passes exactly when the order id is given and success is "true" or "false"; a missing success reports both messages |
| OrderValidation.CallbackValidatorSplitsOutcomes | backend/validation/orderValidation.js:93-97 | after the validator, "false" deletes the order and changes nothing else |
| WishListValidation.FindOwnedOpt | backend/validation/wishListValidation.js:68-73 | an absent id finds nothing; a given id finds the user's list with it |
| WishListValidation.DescriptionViolations | backend/validation/wishListValidation.js:51-55 | an absent description passes; a given one passes exactly when at most 500 characters |
| WishListValidation.PostViolations | backend/validation/wishListValidation.js:35-56 | passes exactly for a given name of 1 to 100 characters whose trimmed form the user has not used, with a valid description; the duplicate is reported exactly when the trimmed name is taken |
| WishListValidation.PostValidatorAndHandler | backend/validation/wishListValidation.js:42-48 | the validator and the handler reject the same duplicate names; a validated non-blank name is created |
| WishListValidation.BlankNamePassesValidator | backend/validation/wishListValidation.js:36-41 | a name of one space passes the validator and fails on save |
| WishListValidation.AddProductViolations | backend/validation/wishListValidation.js:20-31 | passes exactly when the product is given and exists and, if the body names one of the user's lists, that list holds it |
| WishListValidation.AddProductRefusedForForeignSource | backend/validation/wishListValidation.js:96-110 | a product missing from a list named in the body is refused, though the handler would add it to the oldest list |
| WishListValidation.MoveViolations | backend/validation/wishListValidation.js:62-111 | passes exactly when both ids are given and the user's, they differ, and the product exists and is in the source; same lists are reported exactly when the target is found and equals the source |
| WishListValidation.MoveValidatorMeansMove | backend/validation/wishListValidation.js:62-111 | a validated move succeeds, empties the source of the product and leaves exactly one copy in the target |
| WishListValidation.RemoveProductViolations | backend/validation/wishListValidation.js:113-135 | passes exactly when the list is the user's and the given product is in it |
| WishListValidation.RemoveValidatorMeansRemoval | backend/validation/wishListValidation.js:113-135 | a validated removal succeeds and shortens the list |
| WishListValidation.OwnedCount | backend/validation/wishListValidation.js:148 | the user's list count is zero exactly when the user owns no list, and one exactly when the user owns a single list |
| WishListValidation.DeleteListViolations | backend/validation/wishListValidation.js:137-155 | a list that is not the user's is refused; otherwise it is refused exactly when it is the user's only list and named "Default"; it passes exactly when the list is the user's and either is not named "Default" or the user owns another list |
| WishListValidation.SoleNamedListIsDeletable | backend/validation/wishListValidation.js:148-151 | a sole list with another name may be deleted |
| WishListValidation.DeleteValidatorMeansDeletion | backend/validation/wishListValidation.js:137-155 | with distinct ids, a validated deletion is one the handler performs |
| WishListValidation.RenameViolations | backend/validation/wishListValidation.js:157-185 | a name clash is reported exactly when a non-blank trimmed name is used by another list of the user; it passes exactly when the list is the user's, a given name is 1 to 100 characters and, once trimmed, blank or unused by the user's other lists, and a given description is at most 500 characters |
| WishListValidation.RenameToOwnNameAllowed | backend/validation/wishListValidation.js:164-176 | renaming a list to its own name is not a clash |
| AdminValidation.ListingViolations | backend/validation/adminValidation.js:3-17 | passes exactly for valid page and limit and a search of at most 100 characters; the search is reported exactly when too long |
| AdminValidation.TextChain | backend/validation/adminValidation.js:32-35 | a text chain passes exactly when skipped, or the raw length is in bounds and the trimmed text is not empty; "required" is reported exactly when the trimmed text is empty |
| AdminValidation.PriceChain | backend/validation/adminValidation.js:42-44 | the price passes exactly when skipped or between 0.01 and 999999 |
| AdminValidation.StockChain | backend/validation/adminValidation.js:70-72 | the stock passes exactly when skipped or an integer from 0 to 999999 |
| AdminValidation.FieldViolations | backend/validation/adminValidation.js:31-73 | the field chains pass exactly when every field is skipped or in bounds; a blank required field is reported as required |
| AdminValidation.AddSizesViolations | backend/validation/adminValidation.js:57-68 | the sizes pass exactly when they parse to a non-empty array; every failure is the one message |
| AdminValidation.UpdateSizesViolations | backend/validation/adminValidation.js:119-132 | absent or empty sizes also pass on update |
| AdminValidation.FirstBadImage | backend/validation/adminValidation.js:83-94 | no failure exactly when every image is acceptable; otherwise the fault of the first failing image, a wrong type before an excessive size |
| AdminValidation.Flatten | backend/validation/adminValidation.js:83-85 | an image is scanned exactly when it belongs to some upload field |
| AdminValidation.FlattenSnoc | backend/validation/adminValidation.js:83-85 | the images of a later upload field come after those of every earlier field |
| AdminValidation.FirstFailureWins | backend/validation/adminValidation.js:85-91 | an oversized image of an allowed type ahead of one of a wrong type is reported as too large |
| AdminValidation.ImageViolations | backend/validation/adminValidation.js:75-97 | passes exactly when some upload field exists and every image is an allowed type of at most 5 MiB |
| AdminValidation.AddProductViolationsAsWritten | backend/validation/adminValidation.js:101-110 | as written, a form leaving out every required field is judged by its sizes and images alone |
| AdminValidation.AddProductViolations | backend/validation/adminValidation.js:101-110 | as intended, the form passes exactly when every required field is present and in bounds, with sizes and images valid; each absent required field is reported |
| AdminValidation.BareFormAccepted | backend/validation/adminValidation.js:101-117 | a form with only sizes and one image passes the add validator as written, and the intended one reports all five missing fields |
| AdminValidation.UpdateProductViolations | backend/validation/adminValidation.js:112-134 | passes exactly when the optional field chains, stock and update sizes pass; an empty form passes |
| AdminValidation.StatusOf | backend/validation/adminValidation.js:147 | a name read back as a status is that status's name |
| AdminValidation.StatusRoundTrip | backend/validation/adminValidation.js:147 | every status reads back as itself |
| AdminValidation.StatusViolations | backend/validation/adminValidation.js:142-149 | passes exactly for one of the six status names; a missing status reports both messages |
| ReviewValidation.CommentViolations | backend/middleware/reviewValidation.js:16-19 | passes exactly when the trimmed comment is 5 to 1000 characters; an absent comment fails |
| ReviewValidation.RatingViolations | backend/middleware/reviewValidation.js:20-22 | passes exactly for an integer rating from 1 to 5 |
| ReviewValidation.PostViolations | backend/middleware/reviewValidation.js:7-23 | passes exactly when the product exists and the comment and rating pass; the product is reported exactly when missing |
| ReviewValidation.Authorization | backend/middleware/reviewValidation.js:27-38 | passes exactly when the review exists and the requester is its author or an admin; a missing review is reported alone |
| ReviewValidation.DeleteViolations | backend/middleware/reviewValidation.js:25-40 | a pass means the review exists; its author always passes |
| ReviewValidation.UpdateViolations | backend/middleware/reviewValidation.js:62-84 | a pass means the review exists; the comment and rating are reported exactly when their chains fail |
| ReviewValidation.UpdateAndDeleteShareAuthority | backend/middleware/reviewValidation.js:62-84 | an update passes exactly when the matching delete would and the comment and rating pass |
| ReviewValidation.OnlyAuthorOrAdmin | backend/middleware/reviewValidation.js:36-38 | the author and any admin may delete; no one else may |
| ReviewValidation.PaddedCommentSameVerdict | backend/middleware/reviewValidation.js:16-19 | blanks around a comment do not change the verdict |
| ReviewValidation.UserReviewsViolations | backend/middleware/reviewValidation.js:42-50 | passes exactly when the user exists |
| ReviewValidation.ProductReviewsViolations | backend/middleware/reviewValidation.js:52-60 | passes exactly when the product exists |
| ReviewValidation.DeletedProductStillReviewable | backend/middleware/reviewValidation.js:8-15 | a soft-deleted product can still be reviewed and its reviews listed |

## Left out

- `getCart` and `getWishList`/`getWishLists`: read-only lookups with no logic beyond a query.
- `getProduct` in backend/controllers/product.js: a single lookup by id.
- The review, products, admin and auth controllers: the review validators are modelled, the handlers behind them are not.
- Pagination.Paginate: a page below 1 (such as `?page=-2`) with a positive limit gives a negative skip; the database refuses it and the handler answers 500 (backend/controllers/product.js:28-30). The model states that the skip is negative there but does not model the refused query or the 500 answer.
- The `status` filter and the sort and skip of the order listing: these are database queries. The page arithmetic is modelled.
- Database persistence, `populate` as a query, sort tie-breaking, and the strict-schema dropping of fields that the schemas do not declare (price, stock, address, total, status). The model keeps what the handlers compute.
- Concurrency: every handler is one atomic transition of the store, so lost updates between overlapping requests are not represented.
- Stripe session creation and its URLs, Cloudinary uploads, JWT, bcrypt and passport: foreign calls and I/O. The card checkout ends with the list of payment items it would send.
- Orders.PaymentItems: prices are integers, so `Math.round(price * 100)` is exactly `price * 100`. Fractional prices and floating-point rounding are not modelled.
- AdminValidation.PriceChain: a price is modelled in hundredths, so a price with more than two decimals is not represented.
- Request fields are absent, empty, an integer or other text. Fractional, signed-with-blanks and exponent forms are all "other text", so `+"1.5"` is not modelled as a number.
- The `isMongoId` and `ObjectId.isValid` format checks: ids are abstract naturals, so every given id is well-formed. An absent id also fails these checks in the code (`ObjectId.isValid(undefined)` is false, `isMongoId` fails on ""), so `OrderValidation.CallbackViolations`, `WishListValidation.MoveViolations`, `WishListValidation.AddProductViolations` and `WishListValidation.RemoveProductViolations` report one message fewer than the code for a missing id; whether the request passes is the same.
- A `CastError` on a malformed id, which becomes a 500: it cannot arise with abstract ids.
- Lengths are counted in code points, as validator.js's `isLength` counts them. `isLength` also leaves the variation selectors U+FE0E and U+FE0F out of the count; the model counts them.
- Cart.UpdateCartItem: quantities are whole numbers throughout the model. A fractional body quantity such as 1.5 is stored as it is by the handler; here it is "other text" and is rejected on save. A fraction below 1 such as 0.5 is refused with 400 by the `updatedQuantity < 1` guard (backend/controllers/cart.js:96); here it is other text, passes the guard and gets 500.
- The review schema's fields other than author and product: the validators read nothing else.
- The order-status transition machine and refund restocking: the code that would implement them is not part of this model. Only the status names are modelled.
- Which routes mount which validator: each validator is modelled on its own.

## Findings

| source | as written | input that shows it | evidently intended | confidence | as-written member | corrected member |
|---|---|---|---|---|---|---|
| backend/controllers/order.js:246-264 | on `success === "true"` the callback marks the order paid and decrements its stock, with no check of whether it was already paid | the same confirmation of a card order for 2 units of a product with stock 5, delivered twice: stock goes 5, 3, 1 | a paid order is final, so stock is decremented once per order | high, not executed | Orders.VerifyStripeRepeatDecrementsTwice | Orders.VerifyStripeGuardedIdempotent |
| backend/validation/adminValidation.js:101-117 | the field chains are single objects shared by both product validators; `.optional()` at lines 114-117 and 133 runs at load and also makes the add validator's title, description, price, category and stock optional | an add-product form with only sizes `[1]` and one 1000-byte PNG image | the add validator requires title, description, price, category and stock | medium, not executed | AdminValidation.BareFormAccepted | AdminValidation.AddProductViolations |

=== FILE: admin_validation.dfy ===
/**
 * The request validators written for the admin routes: product listing,
 * the product form on add and update, the uploaded images, and the order
 * status. They are not mounted on the admin routes.
 *
 * The product field chains are single objects shared by the add and the
 * update validator. Each call such as `.notEmpty()` or `.optional()`
 * changes the shared chain, and all of these calls run when the module is
 * loaded. So both validators end up running the same chains: the length
 * check, then the trim, then the not-empty check, all skipped when the
 * field is absent.
 */
module AdminValidation {
  import opened Wrappers
  import opened JsValues
  import opened Store
  import opened Checks
  import opened Pagination

  datatype Violation =
    | PageInvalid           // "Page must be a positive integer."
    | LimitInvalid          // "Limit must be between 1-100."
    | SearchTooLong         // "Search term must not exceed 100 characters."
    | TitleLength           // "Title must be between 2-200 characters."
    | TitleRequired         // "Title is required."
    | DescriptionLength     // "Description must be between 10-2000 characters."
    | DescriptionRequired   // "Description is required."
    | PriceRange            // "Price must be between $0.01 and $999,999."
    | PriceRequired         // "Price is required."
    | CategoryLength        // "Category must be between 2-50 characters."
    | CategoryRequired      // "Category is required."
    | SubCategoryTooLong    // "Sub-category must not exceed 50 characters."
    | InvalidSizes          // "Invalid sizes format."
    | StockRange            // "Stock must be between 0 and 999,999."
    | StockRequired         // "Stock is required."
    | ImagesRequired        // "At least one product image is required."
    | ImageType             // "Only JPEG, PNG, and WebP images are allowed."
    | ImageTooLarge         // "Each image must be less than 5MB."
    | StatusRequired        // "Order status is required."
    | StatusInvalid         // "Invalid order status."

  // ---------------------------------------------------------------------
  // Listing

  /** `paginationValidator`: the listing parameters and an optional search
      term of at most 100 characters. */
  function ListingViolations(page: Param, limit: Param, search: Field): (r: seq<Violation>)
    ensures r == [] <==> ValidPaging(page, limit) && (search.Missing? || |search.text| <= 100)
    ensures SearchTooLong in r <==> search.Given? && |search.text| > 100
  {
    Report(page.Absent? || page.IsIntAtLeast(1), PageInvalid)
      + Report(limit.Absent? || limit.IsIntIn(1, 100), LimitInvalid)
      + (if search.Missing? then [] else Report(|search.text| <= 100, SearchTooLong))
  }

  // ---------------------------------------------------------------------
  // The product form

  /** A price field: absent, a decimal number of at most two decimal places
      written in hundredths, or any other text. */
  datatype Amount = NoAmount | Cents(c: int) | NotAmount(text: string) {
    predicate NotEmpty() {
      Cents? || (NotAmount? && |text| > 0)
    }
  }

  /** `isFloat({min: 0.01, max: 999999})`. */
  const MinPriceCents: int := 1
  const MaxPriceCents: int := 999999 * 100

  /** The sizes field, by what `JSON.parse` makes of it. */
  datatype Sizes = NoSizes | EmptySizes | Unparsable | ParsedArray(length: nat) | ParsedOther

  /** One uploaded image. */
  datatype Image = Image(mimetype: string, size: int)

  const ImageTypes: seq<string> := ["image/jpeg", "image/jpg", "image/png", "image/webp"]
  const MaxImageBytes: int := 5 * 1024 * 1024
  const MaxStock: int := 999999

  /** A product form: the text fields, and the images grouped by upload
      field (`None` when no file was uploaded). */
  datatype ProductForm = ProductForm(
    title: Field, description: Field, price: Amount, category: Field, subCategory: Field,
    sizes: Sizes, stock: Param, images: Option<seq<seq<Image>>>)

  /** A text field chain: the length bounds on the raw text, then, on the
      trimmed text, the not-empty check; skipped when optional and absent. */
  function TextChain(f: Field, lo: int, hi: int, tooLong: Violation, required: Violation, optional: bool): (r: seq<Violation>)
    requires tooLong != required
    ensures |r| <= 2
    ensures r == [] <==> (optional && f.Missing?) || (LengthIn(f.Text(), lo, hi) && Trim(f.Text()) != "")
    ensures required in r <==> !(optional && f.Missing?) && Trim(f.Text()) == ""
  {
    if optional && f.Missing? then []
    else Report(LengthIn(f.Text(), lo, hi), tooLong) + Report(Trim(f.Text()) != "", required)
  }

  function PriceChain(a: Amount, optional: bool): (r: seq<Violation>)
    ensures |r| <= 2
    ensures PriceRequired in r <==> !(optional && a.NoAmount?) && !a.NotEmpty()
    ensures r == [] <==> (optional && a.NoAmount?) || (a.Cents? && MinPriceCents <= a.c <= MaxPriceCents)
  {
    if optional && a.NoAmount? then []
    else Report(a.Cents? && MinPriceCents <= a.c <= MaxPriceCents, PriceRange) + Report(a.NotEmpty(), PriceRequired)
  }

  function StockChain(q: Param, optional: bool): (r: seq<Violation>)
    ensures |r| <= 2
    ensures StockRequired in r <==> !(optional && q.Absent?) && !q.IsGiven()
    ensures r == [] <==> (optional && q.Absent?) || q.IsIntIn(0, MaxStock)
  {
    if optional && q.Absent? then []
    else Report(q.IsIntIn(0, MaxStock), StockRange) + Report(q.IsGiven(), StockRequired)
  }

  /** The field chains of both product validators; `optional` says whether
      `.optional()` is in force on title, description, price, category and
      stock. */
  function FieldViolations(f: ProductForm, optional: bool): (r: seq<Violation>)
    ensures r == [] <==>
      && ((optional && f.title.Missing?) || (LengthIn(f.title.Text(), 2, 200) && Trim(f.title.Text()) != ""))
      && ((optional && f.description.Missing?) || (LengthIn(f.description.Text(), 10, 2000) && Trim(f.description.Text()) != ""))
      && ((optional && f.price.NoAmount?) || (f.price.Cents? && MinPriceCents <= f.price.c <= MaxPriceCents))
      && ((optional && f.category.Missing?) || (LengthIn(f.category.Text(), 2, 50) && Trim(f.category.Text()) != ""))
      && (f.subCategory.Missing? || |f.subCategory.text| <= 50)
    ensures !(optional && f.title.Missing?) && Trim(f.title.Text()) == "" ==> TitleRequired in r
    ensures !(optional && f.description.Missing?) && Trim(f.description.Text()) == "" ==> DescriptionRequired in r
    ensures !(optional && f.price.NoAmount?) && !f.price.NotEmpty() ==> PriceRequired in r
    ensures !(optional && f.category.Missing?) && Trim(f.category.Text()) == "" ==> CategoryRequired in r
  {
    var t := TextChain(f.title, 2, 200, TitleLength, TitleRequired, optional);
    var d := TextChain(f.description, 10, 2000, DescriptionLength, DescriptionRequired, optional);
    var p := PriceChain(f.price, optional);
    var c := TextChain(f.category, 2, 50, CategoryLength, CategoryRequired, optional);
    var sub := if f.subCategory.Missing? then [] else Report(|f.subCategory.text| <= 50, SubCategoryTooLong);
    t + (d + (p + (c + sub)))
  }

  /** The sizes check of the add form: every failure, including the inner
      "non-empty array" one, is caught and reported as one message. */
  function AddSizesViolations(s: Sizes): (r: seq<Violation>)
    ensures r == [] || r == [InvalidSizes]
    ensures r == [] <==> s.ParsedArray? && s.length > 0
  {
    Report(s.ParsedArray? && s.length > 0, InvalidSizes)
  }

  /** The sizes check of the update form: an absent or empty field passes. */
  function UpdateSizesViolations(s: Sizes): (r: seq<Violation>)
    ensures r == [] || r == [InvalidSizes]
    ensures r == [] <==> s.NoSizes? || s.EmptySizes? || (s.ParsedArray? && s.length > 0)
  {
    if s.NoSizes? || s.EmptySizes? then [] else AddSizesViolations(s)
  }

  predicate AcceptableImage(img: Image) {
    img.mimetype in ImageTypes && img.size <= MaxImageBytes
  }

  /** All images, upload field by upload field. */
  function Flatten(groups: seq<seq<Image>>): (r: seq<Image>)
    ensures forall img :: img in r <==> exists g :: g in groups && img in g
  {
    if |groups| == 0 then []
    else
      var rest := Flatten(groups[1..]);
      assert forall g :: g in groups <==> g == groups[0] || g in groups[1..];
      groups[0] + rest
  }

  /** Flattening keeps upload order: the images of a later field come after
      those of every earlier one. */
  lemma {:induction false} FlattenSnoc(groups: seq<seq<Image>>, g: seq<Image>)
    ensures Flatten(groups + [g]) == Flatten(groups) + g
  {
    if |groups| == 0 {
      assert groups + [g] == [g];
      assert [g][1..] == [];
    } else {
      assert (groups + [g])[1..] == groups[1..] + [g];
      FlattenSnoc(groups[1..], g);
    }
  }

  /** What the scan throws for a failing image: the type is tested before
      the size. */
  function ImageFault(img: Image): Violation {
    if img.mimetype !in ImageTypes then ImageType else ImageTooLarge
  }

  /** Image `i` is the first one that fails. */
  predicate ImageFailsFirstAt(images: seq<Image>, i: int) {
    && 0 <= i < |images|
    && (forall j :: 0 <= j < i ==> AcceptableImage(images[j]))
    && !AcceptableImage(images[i])
  }

  /** The image scan: the first image of a wrong type, or else too large,
      ends the check with that image's first failure. */
  function FirstBadImage(images: seq<Image>): (r: Option<Violation>)
    ensures r.None? <==> forall i :: 0 <= i < |images| ==> AcceptableImage(images[i])
    ensures r.Some? ==> exists i :: ImageFailsFirstAt(images, i) && r.value == ImageFault(images[i])
  {
    if |images| == 0 then None
    else if !AcceptableImage(images[0]) then
      assert ImageFailsFirstAt(images, 0);
      Some(ImageFault(images[0]))
    else
      assert forall i :: 1 <= i < |images| ==> images[i] == images[1..][i - 1];
      var r := FirstBadImage(images[1..]);
      if r.Some? then
        var k :| ImageFailsFirstAt(images[1..], k) && r.value == ImageFault(images[1..][k]);
        assert ImageFailsFirstAt(images, k + 1);
        r
      else r
  }

  /** An oversized image of an allowed type ahead of an image of a wrong
      type: the scan stops at the first and reports its size. */
  lemma FirstFailureWins(big: Image, other: Image)
    requires big.mimetype in ImageTypes && big.size > MaxImageBytes
    requires other.mimetype !in ImageTypes
    ensures FirstBadImage([big, other]) == Some(ImageTooLarge)
  {
  }

  /** `fileValidator`: at least one upload field, and every image of an
      allowed type and at most 5 MiB. */
  function ImageViolations(images: Option<seq<seq<Image>>>): (r: seq<Violation>)
    ensures |r| <= 1
    ensures r == [] <==> images.Some? && |images.value| > 0 && forall img :: img in Flatten(images.value) ==> AcceptableImage(img)
    ensures images.None? ==> r == [ImagesRequired]
  {
    if images.None? || |images.value| == 0 then [ImagesRequired]
    else
      var bad := FirstBadImage(Flatten(images.value));
      if bad.Some? then [bad.value] else []
  }

  /** The add form's size and image requirements. */
  predicate SizesAndImagesOk(f: ProductForm) {
    && f.sizes.ParsedArray? && f.sizes.length > 0
    && f.images.Some? && |f.images.value| > 0
    && forall img :: img in Flatten(f.images.value) ==> AcceptableImage(img)
  }

  /** `addProductValidator` as written: because of the shared chains, the
      required fields are optional here too, and a form that leaves all of
      them out is judged by its sizes and images alone. */
  function AddProductViolationsAsWritten(f: ProductForm): (r: seq<Violation>)
    ensures
      && f.title.Missing? && f.description.Missing? && f.price.NoAmount?
      && f.category.Missing? && f.subCategory.Missing? && f.stock.Absent?
      ==> (r == [] <==> SizesAndImagesOk(f))
    ensures f.title.Given? && Trim(f.title.text) == "" ==> TitleRequired in r
  {
    var fields := FieldViolations(f, true);
    var sz := AddSizesViolations(f.sizes);
    var st := StockChain(f.stock, true);
    var im := ImageViolations(f.images);
    fields + (sz + (st + im))
  }

  /** `addProductValidator` as its author meant it: title, description,
      price, category and stock are required. */
  function AddProductViolations(f: ProductForm): (r: seq<Violation>)
    ensures r == [] <==>
      && f.title.Given? && LengthIn(f.title.text, 2, 200) && Trim(f.title.text) != ""
      && f.description.Given? && LengthIn(f.description.text, 10, 2000) && Trim(f.description.text) != ""
      && f.price.Cents? && MinPriceCents <= f.price.c <= MaxPriceCents
      && f.category.Given? && LengthIn(f.category.text, 2, 50) && Trim(f.category.text) != ""
      && (f.subCategory.Missing? || |f.subCategory.text| <= 50)
      && f.stock.IsIntIn(0, MaxStock)
      && SizesAndImagesOk(f)
    ensures f.title.Missing? ==> TitleRequired in r
    ensures f.description.Missing? ==> DescriptionRequired in r
    ensures f.price.NoAmount? ==> PriceRequired in r
    ensures f.category.Missing? ==> CategoryRequired in r
    ensures f.stock.Absent? ==> StockRequired in r
  {
    var fields := FieldViolations(f, false);
    var sz := AddSizesViolations(f.sizes);
    var st := StockChain(f.stock, false);
    var im := ImageViolations(f.images);
    var r := fields + (sz + (st + im));
    assert StockRequired in st ==> StockRequired in r;
    r
  }

  /** A form carrying only sizes and one image: the add validator as written
      accepts it, the intended one reports all five missing fields. */
  lemma BareFormAccepted()
    ensures
      var f := ProductForm(Missing, Missing, NoAmount, Missing, Missing, ParsedArray(1), Absent,
                           Some([[Image("image/png", 1000)]]));
      && AddProductViolationsAsWritten(f) == []
      && TitleRequired in AddProductViolations(f)
      && DescriptionRequired in AddProductViolations(f)
      && PriceRequired in AddProductViolations(f)
      && CategoryRequired in AddProductViolations(f)
      && StockRequired in AddProductViolations(f)
  {
    var f := ProductForm(Missing, Missing, NoAmount, Missing, Missing, ParsedArray(1), Absent,
                         Some([[Image("image/png", 1000)]]));
    assert Flatten(f.images.value) == [Image("image/png", 1000)];
    assert AcceptableImage(Image("image/png", 1000));
  }

  /** `updateProductValidator`: every field chain optional, the sizes check
      that lets an empty field through, and no image check. */
  function UpdateProductViolations(f: ProductForm): (r: seq<Violation>)
    ensures r == [] <==> FieldViolations(f, true) == [] && StockChain(f.stock, true) == [] && UpdateSizesViolations(f.sizes) == []
    ensures f == ProductForm(Missing, Missing, NoAmount, Missing, Missing, NoSizes, Absent, None) ==> r == []
  {
    FieldViolations(f, true) + UpdateSizesViolations(f.sizes) + StockChain(f.stock, true)
  }

  // ---------------------------------------------------------------------
  // Order status

  /** The status names the admin validator accepts, as stored. */
  function StatusName(st: OrderStatus): string {
    match st
    case Pending => "pending"
    case Processing => "processing"
    case Shipped => "shipped"
    case Delivered => "delivered"
    case Cancelled => "cancelled"
    case Refund => "refund"
  }

  /** Reading a status name back. */
  function StatusOf(name: string): (r: Option<OrderStatus>)
    ensures r.Some? ==> StatusName(r.value) == name
  {
    if name == "pending" then Some(Pending)
    else if name == "processing" then Some(Processing)
    else if name == "shipped" then Some(Shipped)
    else if name == "delivered" then Some(Delivered)
    else if name == "cancelled" then Some(Cancelled)
    else if name == "refund" then Some(Refund)
    else None
  }

  /** Every status reads back as itself. */
  lemma StatusRoundTrip(st: OrderStatus)
    ensures StatusOf(StatusName(st)) == Some(st)
  {
  }

  /** `updateOrderStatusValidator`: the status must be present and one of
      the six names. */
  function StatusViolations(status: Field): (r: seq<Violation>)
    ensures r == [] <==> StatusOf(status.Text()).Some?
    ensures StatusRequired in r ==> StatusInvalid in r
  {
    Report(status.NotEmpty(), StatusRequired)
      + Report(StatusOf(status.Text()).Some?, StatusInvalid)
  }
}

=== FILE: cart.dfy ===
/**
 * The cart ledger: adding a product (merge into the existing entry or
 * prepend a new one), removing entries by their id, and setting an entry's
 * quantity; first as operations on one cart, then as request handlers on
 * the store.
 */
module Cart {
  import opened Wrappers
  import opened Store
  import opened JsValues

  /** The products a cart refers to. */
  function ProductIds(cart: seq<CartEntry>): set<Id> {
    set i | 0 <= i < |cart| :: cart[i].productId
  }

  /** The entry ids of a cart. */
  function EntryIds(cart: seq<CartEntry>): set<Id> {
    set i | 0 <= i < |cart| :: cart[i].id
  }

  /** Total quantity of product `p` over the whole cart. */
  function QuantityOf(cart: seq<CartEntry>, p: Id): int {
    if |cart| == 0 then 0
    else (if cart[0].productId == p then cart[0].quantity else 0) + QuantityOf(cart[1..], p)
  }

  /** The invariant the ledger keeps: one entry per product, distinct entry
      ids, every quantity at least 1. */
  predicate WellFormed(cart: seq<CartEntry>) {
    DistinctProducts(cart) && DistinctEntries(cart) && PositiveQuantities(cart)
  }

  predicate DistinctProducts(cart: seq<CartEntry>) {
    forall i, j :: 0 <= i < j < |cart| ==> cart[i].productId != cart[j].productId
  }

  predicate DistinctEntries(cart: seq<CartEntry>) {
    forall i, j :: 0 <= i < j < |cart| ==> cart[i].id != cart[j].id
  }

  predicate PositiveQuantities(cart: seq<CartEntry>) {
    forall i :: 0 <= i < |cart| ==> cart[i].quantity >= 1
  }

  /** Every entry id was handed out before `next`. */
  predicate IdsBelow(cart: seq<CartEntry>, next: nat) {
    forall i :: 0 <= i < |cart| ==> cart[i].id < next
  }

  /** `cart.findIndex(item => item.productId == p)`. */
  function IndexOfProduct(cart: seq<CartEntry>, p: Id): (i: int)
    ensures -1 <= i < |cart|
    ensures i >= 0 ==> cart[i].productId == p
    ensures i >= 0 ==> forall k :: 0 <= k < i ==> cart[k].productId != p
    ensures i == -1 <==> p !in ProductIds(cart)
  {
    if |cart| == 0 then -1
    else if cart[0].productId == p then 0
    else
      var j := IndexOfProduct(cart[1..], p);
      assert forall k :: 1 <= k < |cart| ==> cart[k] == cart[1..][k - 1];
      if j == -1 then -1 else j + 1
  }

  /** `cart.findIndex(item => item._id.toString() === id)`. */
  function IndexOfEntry(cart: seq<CartEntry>, id: Id): (i: int)
    ensures -1 <= i < |cart|
    ensures i >= 0 ==> cart[i].id == id
    ensures i >= 0 ==> forall k :: 0 <= k < i ==> cart[k].id != id
    ensures i == -1 <==> id !in EntryIds(cart)
  {
    if |cart| == 0 then -1
    else if cart[0].id == id then 0
    else
      var j := IndexOfEntry(cart[1..], id);
      assert forall k :: 1 <= k < |cart| ==> cart[k] == cart[1..][k - 1];
      if j == -1 then -1 else j + 1
  }

  /** Adding product `p`: an existing entry for it gets one more unit,
      otherwise a new entry `{p, 1}` with id `entryId` goes to the front. */
  function AddItem(cart: seq<CartEntry>, p: Id, entryId: Id): (r: seq<CartEntry>)
    ensures ProductIds(r) == ProductIds(cart) + {p}
    ensures |r| == |cart| + (if p in ProductIds(cart) then 0 else 1)
    ensures p !in ProductIds(cart) ==> r[0] == CartEntry(entryId, p, 1) && r[1..] == cart
    ensures forall k :: 0 <= k < |cart| && cart[k].productId != p ==> r[k + |r| - |cart|] == cart[k]
    ensures p in ProductIds(cart) ==> forall k :: 0 <= k < |cart| ==>
      r[k].id == cart[k].id && r[k].productId == cart[k].productId
    ensures p in ProductIds(cart) ==>
      r[IndexOfProduct(cart, p)].quantity == cart[IndexOfProduct(cart, p)].quantity + 1
  {
    var i := IndexOfProduct(cart, p);
    if i >= 0 then
      var r := cart[i := cart[i].(quantity := cart[i].quantity + 1)];
      assert forall k :: 0 <= k < |r| ==> r[k].productId == cart[k].productId;
      assert ProductIds(r) == ProductIds(cart);
      r
    else
      var r := [CartEntry(entryId, p, 1)] + cart;
      assert forall k :: 0 <= k < |cart| ==> r[k + 1] == cart[k];
      assert r[0].productId == p;
      assert ProductIds(r) == ProductIds(cart) + {p} by {
        forall x | x in ProductIds(r) ensures x in ProductIds(cart) + {p} {
          var k :| 0 <= k < |r| && r[k].productId == x;
          if k > 0 { assert cart[k - 1].productId == x; }
        }
        forall x | x in ProductIds(cart) ensures x in ProductIds(r) {
          var k :| 0 <= k < |cart| && cart[k].productId == x;
          assert r[k + 1].productId == x;
        }
      }
      r
  }

  /** `cart.filter(item => item._id.toString() !== id)`. */
  function RemoveEntry(cart: seq<CartEntry>, id: Id): (r: seq<CartEntry>)
    ensures forall e :: e in r <==> e in cart && e.id != id
    ensures |r| <= |cart|
    ensures id !in EntryIds(cart) ==> r == cart
    ensures id in EntryIds(cart) ==> |r| < |cart|
  {
    if |cart| == 0 then []
    else
      var rest := RemoveEntry(cart[1..], id);
      assert cart == [cart[0]] + cart[1..];
      assert id !in EntryIds(cart) ==> id !in EntryIds(cart[1..]) by {
        if id in EntryIds(cart[1..]) {
          var k :| 0 <= k < |cart[1..]| && cart[1..][k].id == id;
          assert cart[k + 1].id == id;
        }
      }
      assert id in EntryIds(cart) && cart[0].id != id ==> id in EntryIds(cart[1..]) by {
        if id in EntryIds(cart) && cart[0].id != id {
          var k :| 0 <= k < |cart| && cart[k].id == id;
          assert cart[1..][k - 1].id == id;
        }
      }
      if cart[0].id == id then rest else [cart[0]] + rest
  }

  /** Setting the quantity of the entry with id `id`; `None` when no entry
      has that id. */
  function SetQuantity(cart: seq<CartEntry>, id: Id, q: int): (r: Option<seq<CartEntry>>)
    ensures r.None? <==> id !in EntryIds(cart)
    ensures r.Some? ==> |r.value| == |cart|
    ensures r.Some? ==> forall k :: 0 <= k < |cart| ==>
      r.value[k].id == cart[k].id && r.value[k].productId == cart[k].productId
    ensures r.Some? ==> exists k :: 0 <= k < |cart| && cart[k].id == id && r.value[k].quantity == q
    ensures r.Some? ==> forall k :: 0 <= k < |cart| && cart[k].id != id ==> r.value[k] == cart[k]
  {
    var i := IndexOfEntry(cart, id);
    if i == -1 then None else Some(cart[i := cart[i].(quantity := q)])
  }

  // ---------------------------------------------------------------------
  // Properties of the ledger operations

  /** Adding `p` raises the total quantity of `p` by one and leaves every
      other product's total as it was. */
  lemma {:induction false} AddItemQuantity(cart: seq<CartEntry>, p: Id, entryId: Id, q: Id)
    ensures QuantityOf(AddItem(cart, p, entryId), q) == QuantityOf(cart, q) + (if q == p then 1 else 0)
  {
    var i := IndexOfProduct(cart, p);
    if i >= 0 {
      QuantityOfUpdate(cart, i, cart[i].(quantity := cart[i].quantity + 1), q);
    } else {
      var r := [CartEntry(entryId, p, 1)] + cart;
      assert r[1..] == cart;
    }
  }

  /** Replacing entry `i` changes a product's total by the difference the
      replacement makes for that product. */
  lemma {:induction false} QuantityOfUpdate(cart: seq<CartEntry>, i: nat, e: CartEntry, q: Id)
    requires i < |cart|
    ensures QuantityOf(cart[i := e], q)
      == QuantityOf(cart, q)
       - (if cart[i].productId == q then cart[i].quantity else 0)
       + (if e.productId == q then e.quantity else 0)
  {
    if i > 0 {
      assert cart[i := e][1..] == cart[1..][i - 1 := e];
      QuantityOfUpdate(cart[1..], i - 1, e, q);
    } else {
      assert cart[i := e][1..] == cart[1..];
    }
  }

  /** Adding keeps the ledger well-formed, provided the new entry's id is
      fresh: it can never create a second entry for the same product. */
  lemma AddItemWellFormed(cart: seq<CartEntry>, p: Id, next: nat)
    requires WellFormed(cart) && IdsBelow(cart, next)
    ensures WellFormed(AddItem(cart, p, next))
    ensures IdsBelow(AddItem(cart, p, next), if p in ProductIds(cart) then next else next + 1)
  {
    var i := IndexOfProduct(cart, p);
    if i >= 0 {
      IncrementWellFormed(cart, i, next);
      assert AddItem(cart, p, next) == cart[i := cart[i].(quantity := cart[i].quantity + 1)];
    } else {
      PrependWellFormed(cart, p, next);
      assert AddItem(cart, p, next) == [CartEntry(next, p, 1)] + cart;
    }
  }

  /** Raising one entry's quantity keeps the ledger well-formed. */
  lemma IncrementWellFormed(cart: seq<CartEntry>, i: nat, next: nat)
    requires WellFormed(cart) && IdsBelow(cart, next) && i < |cart|
    ensures var r := cart[i := cart[i].(quantity := cart[i].quantity + 1)];
      WellFormed(r) && IdsBelow(r, next)
  {
    var r := cart[i := cart[i].(quantity := cart[i].quantity + 1)];
    assert forall k :: 0 <= k < |r| ==>
      r[k].productId == cart[k].productId && r[k].id == cart[k].id && r[k].quantity >= cart[k].quantity;
  }

  /** A new entry with a fresh id for a product not yet in the cart keeps
      the ledger well-formed. */
  lemma PrependWellFormed(cart: seq<CartEntry>, p: Id, next: nat)
    requires WellFormed(cart) && IdsBelow(cart, next) && p !in ProductIds(cart)
    ensures var r := [CartEntry(next, p, 1)] + cart;
      WellFormed(r) && IdsBelow(r, next + 1)
  {
    var r := [CartEntry(next, p, 1)] + cart;
    assert forall k :: 0 < k < |r| ==> r[k] == cart[k - 1];
    forall k | 0 < k < |r| ensures r[k].productId != p && r[k].id != next {
      assert cart[k - 1].productId in ProductIds(cart);
    }
  }

  /** The filter distributes over concatenation, so the kept entries stay in
      cart order. */
  lemma {:induction false} RemoveEntryConcat(a: seq<CartEntry>, b: seq<CartEntry>, id: Id)
    ensures RemoveEntry(a + b, id) == RemoveEntry(a, id) + RemoveEntry(b, id)
  {
    if |a| == 0 {
      assert a + b == b;
    } else {
      assert (a + b)[1..] == a[1..] + b;
      RemoveEntryConcat(a[1..], b, id);
    }
  }

  /** Removing entries keeps the ledger well-formed. */
  lemma {:induction false} RemoveEntryWellFormed(cart: seq<CartEntry>, id: Id, next: nat)
    requires WellFormed(cart) && IdsBelow(cart, next)
    ensures WellFormed(RemoveEntry(cart, id)) && IdsBelow(RemoveEntry(cart, id), next)
  {
    if |cart| > 0 {
      var tail := cart[1..];
      TailWellFormed(cart, next);
      RemoveEntryWellFormed(tail, id, next);
      var rest := RemoveEntry(tail, id);
      if cart[0].id != id {
        forall j | 0 <= j < |rest| ensures rest[j].productId != cart[0].productId && rest[j].id != cart[0].id {
          assert rest[j] in tail;
          var k :| 0 <= k < |tail| && tail[k] == rest[j];
          assert cart[k + 1] == rest[j];
        }
        ConsWellFormed(cart[0], rest, next);
        assert RemoveEntry(cart, id) == [cart[0]] + rest;
      } else {
        assert RemoveEntry(cart, id) == rest;
      }
    }
  }

  lemma TailWellFormed(cart: seq<CartEntry>, next: nat)
    requires WellFormed(cart) && IdsBelow(cart, next) && |cart| > 0
    ensures WellFormed(cart[1..]) && IdsBelow(cart[1..], next)
  {
    assert forall k :: 1 <= k < |cart| ==> cart[k] == cart[1..][k - 1];
  }

  /** An entry in front of a well-formed ledger that shares neither product
      nor id with it keeps the ledger well-formed. */
  lemma ConsWellFormed(e: CartEntry, rest: seq<CartEntry>, next: nat)
    requires WellFormed(rest) && IdsBelow(rest, next)
    requires e.quantity >= 1 && e.id < next
    requires forall j :: 0 <= j < |rest| ==> rest[j].productId != e.productId && rest[j].id != e.id
    ensures WellFormed([e] + rest) && IdsBelow([e] + rest, next)
  {
    var r := [e] + rest;
    assert forall j :: 0 < j < |r| ==> r[j] == rest[j - 1];
  }

  /** Setting a quantity of at least 1 keeps the ledger well-formed, and in
      a well-formed cart exactly the entry with that id changes. */
  lemma SetQuantityWellFormed(cart: seq<CartEntry>, id: Id, q: int, next: nat)
    requires WellFormed(cart) && IdsBelow(cart, next) && q >= 1
    requires id in EntryIds(cart)
    ensures WellFormed(SetQuantity(cart, id, q).value)
    ensures IdsBelow(SetQuantity(cart, id, q).value, next)
    ensures forall k :: 0 <= k < |cart| ==>
      SetQuantity(cart, id, q).value[k] == if cart[k].id == id then cart[k].(quantity := q) else cart[k]
  {
  }

  // ---------------------------------------------------------------------
  // The request handlers

  /** The cart invariant over every user of the store. */
  predicate CartsValid(s: Store) {
    forall u :: u in s.users ==> WellFormed(s.users[u].cart) && IdsBelow(s.users[u].cart, s.nextId)
  }

  /** POST /api/cart: a missing product id is rejected before the user is
      looked up; an unknown user is "Not Authorized". The product itself is
      not looked up. */
  function AddToCart(s: Store, uid: Id, productId: Option<Id>): (r: Result<Store, Error>)
    ensures productId.None? ==> r == Err(ProductIdRequired)
    ensures productId.Some? && uid !in s.users ==> r == Err(NotAuthorized)
    ensures r.Ok? <==> productId.Some? && uid in s.users
    ensures r.Ok? ==> r.value.users.Keys == s.users.Keys
    ensures r.Ok? ==>
      var before := s.users[uid].cart;
      && r.value.users[uid].cart == AddItem(before, productId.value, s.nextId)
      && r.value == WithCart(s.(nextId := r.value.nextId), uid, r.value.users[uid].cart)
      && r.value.nextId == s.nextId + (if productId.value in ProductIds(before) then 0 else 1)
  {
    if productId.None? then Err(ProductIdRequired)
    else if uid !in s.users then Err(NotAuthorized)
    else
      var before := s.users[uid].cart;
      var p := productId.value;
      var next := if p in ProductIds(before) then s.nextId else s.nextId + 1;
      Ok(WithCart(s, uid, AddItem(before, p, s.nextId)).(nextId := next))
  }

  /** DELETE /api/cart/:cartId: an unknown user is "Not Authorized", an
      empty cart is rejected, and otherwise every entry with that id is
      dropped; an id that matches nothing still succeeds. */
  function DeleteFromCart(s: Store, uid: Id, entryId: Id): (r: Result<Store, Error>)
    ensures uid !in s.users ==> r == Err(NotAuthorized)
    ensures uid in s.users && |s.users[uid].cart| == 0 ==> r == Err(CartEmpty)
    ensures r.Ok? <==> uid in s.users && |s.users[uid].cart| > 0
    ensures r.Ok? ==> r.value.users.Keys == s.users.Keys
    ensures r.Ok? ==>
      var before := s.users[uid].cart;
      && r.value == WithCart(s, uid, r.value.users[uid].cart)
      && r.value.users[uid].cart == RemoveEntry(before, entryId)
      && (forall e :: e in r.value.users[uid].cart <==> e in before && e.id != entryId)
      && (entryId !in EntryIds(before) ==> r.value == s)
  {
    if uid !in s.users then Err(NotAuthorized)
    else if |s.users[uid].cart| == 0 then Err(CartEmpty)
    else
      var before := s.users[uid].cart;
      var r := WithCart(s, uid, RemoveEntry(before, entryId));
      assert entryId !in EntryIds(before) ==> r == s;
      Ok(r)
  }

  /** `quantity < 1` on the body's quantity: the empty text compares as 0,
      while an absent quantity and other text compare as NaN and pass. */
  predicate BelowOne(quantity: Param) {
    quantity.ToNum().Finite? && quantity.ToNum().n < 1
  }

  /** PUT /api/cart/:cartId: a quantity below 1 is rejected before any
      lookup, then an unknown user, then an unknown entry id. A quantity
      that passed the guard without being a number is assigned all the
      same, and the save rejects it: an absent one fails `required`, other
      text fails the cast to Number. */
  function UpdateCartItem(s: Store, uid: Id, entryId: Id, quantity: Param): (r: Result<Store, Error>)
    ensures BelowOne(quantity) ==> r == Err(QuantityNotPositive)
    ensures !BelowOne(quantity) && uid !in s.users ==> r == Err(NotAuthorized)
    ensures !BelowOne(quantity) && uid in s.users && entryId !in EntryIds(s.users[uid].cart)
      ==> r == Err(CartItemNotFound)
    ensures (quantity.Absent? || quantity.OtherText?) && uid in s.users && entryId in EntryIds(s.users[uid].cart)
      ==> r == Err(Unexpected)
    ensures r.Ok? <==>
      quantity.IntText? && quantity.v >= 1 && uid in s.users && entryId in EntryIds(s.users[uid].cart)
    ensures r.Ok? ==> r.value.users.Keys == s.users.Keys
    ensures r.Ok? ==>
      var before := s.users[uid].cart;
      var after := r.value.users[uid].cart;
      && r.value == WithCart(s, uid, after)
      && |after| == |before|
      && (forall k :: 0 <= k < |before| && before[k].id != entryId ==> after[k] == before[k])
      && (exists k :: 0 <= k < |before| && before[k].id == entryId && after[k] == before[k].(quantity := quantity.v))
  {
    if BelowOne(quantity) then Err(QuantityNotPositive)
    else if uid !in s.users then Err(NotAuthorized)
    else
      var cart := s.users[uid].cart;
      if entryId !in EntryIds(cart) then Err(CartItemNotFound)
      else if !quantity.IntText? then Err(Unexpected)
      else Ok(WithCart(s, uid, SetQuantity(cart, entryId, quantity.v).value))
  }

  /** Adding to a cart keeps every cart well-formed. */
  lemma AddToCartPreservesValid(s: Store, uid: Id, productId: Option<Id>)
    requires CartsValid(s)
    ensures AddToCart(s, uid, productId).Ok? ==> CartsValid(AddToCart(s, uid, productId).value)
  {
    if productId.Some? && uid in s.users {
      var before := s.users[uid].cart;
      var p := productId.value;
      var r := AddToCart(s, uid, productId).value;
      var added := AddItem(before, p, s.nextId);
      AddItemWellFormed(before, p, s.nextId);
      WithCartKeepsValid(s, uid, added, r.nextId);
    }
  }

  /** Replacing one user's cart by a well-formed one whose ids lie below the
      new counter keeps every cart well-formed. */
  lemma WithCartKeepsValid(s: Store, uid: Id, cart: seq<CartEntry>, next: nat)
    requires CartsValid(s) && uid in s.users
    requires WellFormed(cart) && IdsBelow(cart, next) && next >= s.nextId
    ensures CartsValid(WithCart(s.(nextId := next), uid, cart))
  {
    var r := WithCart(s.(nextId := next), uid, cart);
    forall u | u in r.users ensures WellFormed(r.users[u].cart) && IdsBelow(r.users[u].cart, r.nextId) {
      if u != uid {
        assert r.users[u] == s.users[u];
        assert IdsBelow(s.users[u].cart, s.nextId);
      }
    }
  }

  /** Deleting from a cart keeps every cart well-formed. */
  lemma DeleteFromCartPreservesValid(s: Store, uid: Id, entryId: Id)
    requires CartsValid(s)
    ensures DeleteFromCart(s, uid, entryId).Ok? ==> CartsValid(DeleteFromCart(s, uid, entryId).value)
  {
    if uid in s.users {
      RemoveEntryWellFormed(s.users[uid].cart, entryId, s.nextId);
    }
  }

  /** Updating a quantity keeps every cart well-formed: the handler's guard
      is exactly what keeps quantities positive. */
  lemma UpdateCartItemPreservesValid(s: Store, uid: Id, entryId: Id, quantity: Param)
    requires CartsValid(s)
    ensures UpdateCartItem(s, uid, entryId, quantity).Ok? ==>
      CartsValid(UpdateCartItem(s, uid, entryId, quantity).value)
  {
    if quantity.IntText? && quantity.v >= 1 && uid in s.users && entryId in EntryIds(s.users[uid].cart) {
      SetQuantityWellFormed(s.users[uid].cart, entryId, quantity.v, s.nextId);
    }
  }
}

=== FILE: cart_validation.dfy ===
/**
 * The request validators written for the cart routes. Each returns the
 * violations it would report, in chain order; a request passes when there
 * are none. The validators are not mounted on the cart routes, so the
 * handlers do not rely on them; the lemmas say what a passing request
 * guarantees the handler.
 */
module CartValidation {
  import opened Wrappers
  import opened JsValues
  import opened Store
  import opened Checks
  import Cart

  datatype Violation =
    | ProductIdMissing     // "Product ID is required in request body."
    | UserUnknown          // "Not Authorized."
    | UserRecordMissing    // `user.cart` read on a null user
    | ItemMissing          // "This cart item doesn't exist."
    | QuantityInvalid      // "Quantity must be positive integer."

  /** `addToCartValidator`: a falsy product id, then an unknown user, each
      end the one custom check. */
  function AddToCartViolations(s: Store, uid: Id, productId: Option<Id>): (r: seq<Violation>)
    ensures r == [] <==> productId.Some? && uid in s.users
    ensures productId.None? ==> r == [ProductIdMissing]
    ensures productId.Some? && uid !in s.users ==> r == [UserUnknown]
  {
    if productId.None? then [ProductIdMissing]
    else if uid !in s.users then [UserUnknown]
    else []
  }

  /** The add validator and the add handler reject exactly the same
      requests, for the same reason. */
  lemma AddToCartValidatorAgrees(s: Store, uid: Id, productId: Option<Id>)
    ensures AddToCartViolations(s, uid, productId) == [] <==> Cart.AddToCart(s, uid, productId).Ok?
    ensures AddToCartViolations(s, uid, productId) == [ProductIdMissing]
      <==> Cart.AddToCart(s, uid, productId) == Err(ProductIdRequired)
    ensures AddToCartViolations(s, uid, productId) == [UserUnknown]
      <==> Cart.AddToCart(s, uid, productId) == Err(NotAuthorized)
  {
  }

  /** The cart-entry check shared by delete and update: the user is read
      without a null check, then the entry must exist. */
  function EntryViolations(s: Store, uid: Id, entryId: Id): (r: seq<Violation>)
    ensures r == [] <==> uid in s.users && entryId in Cart.EntryIds(s.users[uid].cart)
    ensures |r| <= 1
    ensures uid !in s.users ==> r == [UserRecordMissing]
  {
    if uid !in s.users then [UserRecordMissing]
    else
      var cart := s.users[uid].cart;
      Report(|cart| > 0 && entryId in Cart.EntryIds(cart), ItemMissing)
  }

  /** `deleteItemFromCartValidator`. */
  function DeleteItemViolations(s: Store, uid: Id, entryId: Id): (r: seq<Violation>)
    ensures r == [] <==> uid in s.users && entryId in Cart.EntryIds(s.users[uid].cart)
  {
    EntryViolations(s, uid, entryId)
  }

  /** A delete the validator passes really removes something, where the
      bare handler also answers 200 for an id that matches no entry. */
  lemma DeleteValidatorMeansRemoval(s: Store, uid: Id, entryId: Id)
    requires DeleteItemViolations(s, uid, entryId) == []
    ensures Cart.DeleteFromCart(s, uid, entryId).Ok?
    ensures |Cart.DeleteFromCart(s, uid, entryId).value.users[uid].cart| < |s.users[uid].cart|
  {
    assert |s.users[uid].cart| > 0;
  }

  /** `updateItemFromCartValidator`: the entry chain, then the quantity
      chain, which must be an integer of at least 1. */
  function UpdateItemViolations(s: Store, uid: Id, entryId: Id, quantity: Param): (r: seq<Violation>)
    ensures r == [] <==>
      uid in s.users && entryId in Cart.EntryIds(s.users[uid].cart) && quantity.IsIntAtLeast(1)
    ensures QuantityInvalid in r <==> !quantity.IsIntAtLeast(1)
    ensures |r| <= 2
  {
    EntryViolations(s, uid, entryId) + Report(quantity.IsIntAtLeast(1), QuantityInvalid)
  }

  /** An update the validator passes is one the handler carries out. */
  lemma UpdateValidatorMeansUpdate(s: Store, uid: Id, entryId: Id, quantity: Param)
    requires UpdateItemViolations(s, uid, entryId, quantity) == []
    ensures Cart.UpdateCartItem(s, uid, entryId, quantity).Ok?
  {
  }
}

=== FILE: checks.dfy ===
/**
 * The express-validator building blocks the request validators share. A
 * chain runs every one of its checks, in order, and reports one violation
 * per failing check; `.optional()` skips the whole chain when the field is
 * absent; `.trim()` changes the value the later checks of the chain see.
 */
module Checks {
  import opened JsValues

  /** A text field of a request: absent, or its text. */
  datatype Field = Missing | Given(text: string) {

    /** The text the checks see: an absent field reads as "". */
    function Text(): string {
      if Given? then text else ""
    }

    /** `notEmpty()`. */
    predicate NotEmpty() {
      Given? && |text| > 0
    }
  }

  /** `isLength({min: lo, max: hi})`, counting characters. */
  predicate LengthIn(s: string, lo: int, hi: int) {
    lo <= |s| <= hi
  }

  /** One violation when a check fails, none when it passes. */
  function Report<V>(ok: bool, v: V): (r: seq<V>)
    ensures ok ==> r == []
    ensures !ok ==> r == [v]
  {
    if ok then [] else [v]
  }
}

=== FILE: jsvalues.dfy ===
/**
 * The few JavaScript value rules the handlers lean on: `Number(x) || d`
 * defaulting, comparisons against NaN, NaN-propagating arithmetic,
 * `String.prototype.trim`, and request parameters as they arrive as text.
 */
module JsValues {

  /** A JavaScript number as the handlers see it: an integer or NaN
      (what `Number(undefined)` and `Number("abc")` give). */
  datatype Num = Finite(n: int) | NaN {

    /** `Number(x) || d`: both NaN and 0 are falsy and fall back to `d`. */
    function OrElse(d: int): (r: int)
      ensures Finite? && n != 0 ==> r == n
      ensures NaN? || n == 0 ==> r == d
    {
      if Finite? && n != 0 then n else d
    }
  }

  /** `q || d` for a value already known to be a number. */
  function IntOr(q: int, d: int): (r: int)
    ensures q != 0 ==> r == q
    ensures q == 0 ==> r == d
  {
    if q == 0 then d else q
  }

  /** `a > b` where `b` may be NaN: every comparison with NaN is false. */
  predicate Exceeds(a: int, b: Num) {
    b.Finite? && a > b.n
  }

  /** `a + b` with NaN absorbing. */
  function Plus(a: Num, b: Num): (r: Num)
    ensures r.NaN? <==> a.NaN? || b.NaN?
    ensures r.Finite? ==> r.n == a.n + b.n
  {
    if a.Finite? && b.Finite? then Finite(a.n + b.n) else NaN
  }

  /** `a * q` with NaN absorbing. */
  function Times(a: Num, q: int): (r: Num)
    ensures r.NaN? <==> a.NaN?
    ensures r.Finite? ==> r.n == a.n * q
  {
    if a.Finite? then Finite(a.n * q) else NaN
  }

  /** A query or body field, after the framework hands it over as text:
      absent, the empty text, the text of an integer, or any other text (a
      word, a fraction). */
  datatype Param = Absent | EmptyText | IntText(v: int) | OtherText {

    /** `+param`: the number the unary plus makes of it; `+""` is 0. */
    function ToNum(): (r: Num)
      ensures r.Finite? <==> IntText? || EmptyText?
      ensures IntText? ==> r == Finite(v)
      ensures EmptyText? ==> r == Finite(0)
    {
      if IntText? then Finite(v) else if EmptyText? then Finite(0) else NaN
    }

    /** express-validator's `notEmpty()`: absent and empty text both fail. */
    predicate IsGiven() {
      IntText? || OtherText?
    }

    /** express-validator's `isInt({min: lo, max: hi})`. */
    predicate IsIntIn(lo: int, hi: int) {
      IntText? && lo <= v <= hi
    }

    /** express-validator's `isInt({min: lo})` with no upper bound. */
    predicate IsIntAtLeast(lo: int) {
      IntText? && lo <= v
    }
  }

  /** The characters `String.prototype.trim` removes: ECMAScript WhiteSpace
      (tab, vertical tab, form feed, space, no-break space, the byte order
      mark and every space separator) and LineTerminator (line feed,
      carriage return, line and paragraph separators). */
  predicate IsBlank(c: char) {
    || '\t' <= c <= '\r'
    || c == ' ' || c == '\U{00A0}' || c == '\U{1680}'
    || '\U{2000}' <= c <= '\U{200A}'
    || c == '\U{2028}' || c == '\U{2029}' || c == '\U{202F}' || c == '\U{205F}'
    || c == '\U{3000}' || c == '\U{FEFF}'
  }

  /** True when `s` neither starts nor ends with a blank. */
  predicate IsTrimmed(s: string) {
    |s| == 0 || (!IsBlank(s[0]) && !IsBlank(s[|s| - 1]))
  }

  /** `s` with its leading blanks dropped. */
  function TrimStart(s: string): (r: string)
    ensures |r| <= |s| && r == s[|s| - |r|..]
    ensures forall i :: 0 <= i < |s| - |r| ==> IsBlank(s[i])
    ensures |r| > 0 ==> !IsBlank(r[0])
  {
    if |s| > 0 && IsBlank(s[0]) then TrimStart(s[1..]) else s
  }

  /** `s` with its trailing blanks dropped. */
  function TrimEnd(s: string): (r: string)
    ensures |r| <= |s| && r == s[..|r|]
    ensures forall i :: |r| <= i < |s| ==> IsBlank(s[i])
    ensures |r| > 0 ==> !IsBlank(r[|r| - 1])
  {
    if |s| > 0 && IsBlank(s[|s| - 1]) then TrimEnd(s[..|s| - 1]) else s
  }

  /** `s.trim()`. */
  function Trim(s: string): (r: string)
    ensures IsTrimmed(r)
    ensures |r| <= |s|
    ensures forall c :: c in r ==> c in s
  {
    TrimBothEnds(s);
    TrimEnd(TrimStart(s))
  }

  lemma TrimBothEnds(s: string)
    ensures var r := TrimEnd(TrimStart(s));
      IsTrimmed(r) && forall c :: c in r ==> c in s
  {
    var t := TrimStart(s);
    var r := TrimEnd(t);
    forall c | c in r ensures c in s {
      var i :| 0 <= i < |r| && r[i] == c;
      assert t[i] == c;
      assert s[|s| - |t| + i] == c;
    }
    if |r| > 0 {
      assert r[0] == t[0];
    }
  }

  /** Trimming leaves an already trimmed string alone, so `trim` is idempotent. */
  lemma TrimmedIsFixpoint(s: string)
    requires IsTrimmed(s)
    ensures Trim(s) == s
  {
  }

  lemma TrimIdempotent(s: string)
    ensures Trim(Trim(s)) == Trim(s)
  {
    TrimmedIsFixpoint(Trim(s));
  }

  /** Leading blanks in front of a string that starts with a non-blank are
      all that `TrimStart` removes. */
  lemma {:induction false} TrimStartSkipsBlanks(pad: string, t: string)
    requires forall i :: 0 <= i < |pad| ==> IsBlank(pad[i])
    requires |t| > 0 && !IsBlank(t[0])
    ensures TrimStart(pad + t) == t
  {
    if |pad| > 0 {
      assert (pad + t)[1..] == pad[1..] + t;
      TrimStartSkipsBlanks(pad[1..], t);
    } else {
      assert pad + t == t;
    }
  }

  /** Trailing blanks behind a string that ends with a non-blank are all that
      `TrimEnd` removes. */
  lemma {:induction false} TrimEndSkipsBlanks(t: string, pad: string)
    requires forall i :: 0 <= i < |pad| ==> IsBlank(pad[i])
    requires |t| > 0 && !IsBlank(t[|t| - 1])
    ensures TrimEnd(t + pad) == t
  {
    if |pad| > 0 {
      assert (t + pad)[..|t + pad| - 1] == t + pad[..|pad| - 1];
      TrimEndSkipsBlanks(t, pad[..|pad| - 1]);
    } else {
      assert t + pad == t;
    }
  }

  /** Blanks around a trimmed, non-empty string are exactly what `trim`
      takes away. */
  lemma TrimPadded(before: string, t: string, after: string)
    requires forall i :: 0 <= i < |before| ==> IsBlank(before[i])
    requires forall i :: 0 <= i < |after| ==> IsBlank(after[i])
    requires IsTrimmed(t) && |t| > 0
    ensures Trim(before + t + after) == t
  {
    assert before + t + after == before + (t + after);
    TrimStartSkipsBlanks(before, t + after);
    TrimEndSkipsBlanks(t, after);
  }

  /** Decimal digits of a natural number, as a template literal prints it. */
  function NatToString(n: nat): (r: string)
    ensures |r| > 0
    ensures forall i :: 0 <= i < |r| ==> '0' <= r[i] <= '9'
  {
    var d := ['0', '1', '2', '3', '4', '5', '6', '7', '8', '9'];
    if n < 10 then [d[n]] else NatToString(n / 10) + [d[n % 10]]
  }
}

=== FILE: order_validation.dfy ===
/**
 * The request validators written for the order routes: placing an order,
 * listing a user's orders, and the payment callback. They are not mounted
 * on the order routes; the lemmas relate what they accept to what the
 * handlers do.
 */
module OrderValidation {
  import opened Wrappers
  import opened JsValues
  import opened Store
  import opened Stock
  import opened Checks
  import opened Pagination
  import Orders

  /** One entry of the out-of-stock message:
      "title (requested: q, available: stock)". */
  datatype Detail = Detail(title: string, requested: int, available: Num)

  datatype Violation =
    | AddressRequired           // "Address is required."
    | AddressLength             // "Address must be between 10-500 characters."
    | NoUser                    // "User not found."
    | EmptyCart                 // "Cart is empty."
    | InvalidProduct            // "Invalid product in cart."
    | InvalidQuantity           // "Invalid quantity in cart."
    | OutOfStockItems(details: seq<Detail>)  // "Out of stock items: ..."
    | Unavailable               // "Some products in cart are no longer available."
    | PageInvalid               // "Page must be a positive integer."
    | LimitInvalid              // "Limit must be between 1-100."
    | OrderIdRequired           // "Order ID is required."
    | SuccessRequired           // "Success parameter is required."
    | SuccessInvalid            // "Success must be 'true' or 'false'."

  // ---------------------------------------------------------------------
  // Placing an order

  /** The validator's shortage test, `+quantity > +stock`: a NaN stock makes
      the comparison false, so such an item is never short. */
  predicate Exceeding(it: Item) {
    Exceeds(it.entry.quantity, it.product.stock)
  }

  /** `getOutOfStockItems`: the exceeding items, in cart order. */
  function OutOfStockOf(items: seq<Item>): (r: seq<Item>)
    ensures forall x :: x in r <==> x in items && Exceeding(x)
    ensures |r| <= |items|
  {
    if |items| == 0 then []
    else
      var rest := OutOfStockOf(items[1..]);
      assert forall x :: x in items <==> x == items[0] || x in items[1..];
      if Exceeding(items[0]) then [items[0]] + rest else rest
  }

  /** The filter distributes over concatenation, so the exceeding items keep
      their cart order. */
  lemma {:induction false} OutOfStockOfConcat(a: seq<Item>, b: seq<Item>)
    ensures OutOfStockOf(a + b) == OutOfStockOf(a) + OutOfStockOf(b)
  {
    if |a| == 0 {
      assert a + b == b;
    } else {
      assert (a + b)[1..] == a[1..] + b;
      OutOfStockOfConcat(a[1..], b);
    }
  }

  /** With a numeric stock the validator's test and the handler's agree. */
  lemma ShortnessAgreesOnNumericStock(it: Item)
    requires it.product.stock.Finite?
    ensures IsShort(it) <==> Exceeding(it)
  {
  }

  /** With a NaN stock they part: the handler reads the stock as 0, so any
      positive quantity is short there and never short here. */
  lemma ShortnessDivergesOnNaNStock(it: Item)
    requires it.product.stock.NaN? && it.entry.quantity > 0
    ensures IsShort(it) && !Exceeding(it)
  {
  }

  function Details(items: seq<Item>): (r: seq<Detail>)
    ensures |r| == |items|
    ensures forall i :: 0 <= i < |items| ==>
      r[i] == Detail(items[i].product.title, items[i].entry.quantity, items[i].product.stock)
  {
    if |items| == 0 then [] else [Detail(items[0].product.title, items[0].entry.quantity, items[0].product.stock)] + Details(items[1..])
  }

  /** The per-item loop's test of one entry: its product was found and its
      quantity is positive. */
  predicate EntryOk(products: map<Id, Product>, e: CartEntry) {
    e.productId in products && e.quantity > 0
  }

  /** What the loop throws for a failing entry: a missing product is tested
      before the quantity. */
  function EntryFault(products: map<Id, Product>, e: CartEntry): Violation {
    if e.productId !in products then InvalidProduct else InvalidQuantity
  }

  /** Entry `i` is the first one that fails the per-item test. */
  predicate FailsFirstAt(products: map<Id, Product>, cart: seq<CartEntry>, i: int) {
    && 0 <= i < |cart|
    && (forall j :: 0 <= j < i ==> EntryOk(products, cart[j]))
    && !EntryOk(products, cart[i])
  }

  /** The per-item loop: the first entry whose product is gone, or whose
      quantity is not positive, ends the check with that entry's fault. */
  function FirstBadEntry(products: map<Id, Product>, cart: seq<CartEntry>): (r: Option<Violation>)
    ensures r.None? <==> forall i :: 0 <= i < |cart| ==> EntryOk(products, cart[i])
    ensures r.Some? ==> exists i :: FailsFirstAt(products, cart, i) && r.value == EntryFault(products, cart[i])
  {
    if |cart| == 0 then None
    else if !EntryOk(products, cart[0]) then
      assert FailsFirstAt(products, cart, 0);
      Some(EntryFault(products, cart[0]))
    else
      assert forall i :: 1 <= i < |cart| ==> cart[i] == cart[1..][i - 1];
      var r := FirstBadEntry(products, cart[1..]);
      if r.Some? then
        var k :| FailsFirstAt(products, cart[1..], k) && r.value == EntryFault(products, cart[1..][k]);
        assert FailsFirstAt(products, cart, k + 1);
        r
      else r
  }

  /** Every entry of the cart resolves, asks for a positive quantity, is not
      exceeding its stock, and its product is not deleted. */
  predicate Orderable(products: map<Id, Product>, cart: seq<CartEntry>) {
    forall i :: 0 <= i < |cart| ==>
      && cart[i].productId in products
      && cart[i].quantity > 0
      && !Exceeds(cart[i].quantity, products[cart[i].productId].stock)
      && !products[cart[i].productId].isDeleted
  }

  /** The custom check on the address chain, which ignores the address and
      inspects the user's cart: user, emptiness, each entry, stock, and only
      then deleted products. */
  function CartCheck(s: Store, uid: Id): (r: Option<Violation>)
    ensures r.None? <==> uid in s.users && |s.users[uid].cart| > 0 && Orderable(s.products, s.users[uid].cart)
    ensures uid !in s.users ==> r == Some(NoUser)
    ensures uid in s.users && |s.users[uid].cart| == 0 ==> r == Some(EmptyCart)
    ensures r == Some(Unavailable) ==>
      var cart := s.users[uid].cart;
      && (forall i :: 0 <= i < |cart| ==> cart[i].productId in s.products)
      && (forall i :: 0 <= i < |cart| ==> !Exceeds(cart[i].quantity, s.products[cart[i].productId].stock))
      && (exists i :: 0 <= i < |cart| && s.products[cart[i].productId].isDeleted)
    ensures r.Some? && r.value.OutOfStockItems? ==>
      && Resolve(s.products, s.users[uid].cart).Some?
      && r.value.details == Details(OutOfStockOf(Resolve(s.products, s.users[uid].cart).value))
      && |r.value.details| > 0
    ensures uid in s.users && |s.users[uid].cart| > 0 && FirstBadEntry(s.products, s.users[uid].cart).Some?
      ==> r == FirstBadEntry(s.products, s.users[uid].cart)
    ensures uid in s.users && |s.users[uid].cart| > 0 && FirstBadEntry(s.products, s.users[uid].cart).None?
      && (exists i :: 0 <= i < |s.users[uid].cart| && Exceeds(s.users[uid].cart[i].quantity, s.products[s.users[uid].cart[i].productId].stock))
      ==> r.Some? && r.value.OutOfStockItems?
    ensures uid in s.users && |s.users[uid].cart| > 0 && FirstBadEntry(s.products, s.users[uid].cart).None?
      && (forall i :: 0 <= i < |s.users[uid].cart| ==> !Exceeds(s.users[uid].cart[i].quantity, s.products[s.users[uid].cart[i].productId].stock))
      && (exists i :: 0 <= i < |s.users[uid].cart| && s.products[s.users[uid].cart[i].productId].isDeleted)
      ==> r == Some(Unavailable)
  {
    if uid !in s.users then Some(NoUser)
    else
      var cart := s.users[uid].cart;
      if |cart| == 0 then Some(EmptyCart)
      else
        var bad := FirstBadEntry(s.products, cart);
        if bad.Some? then bad
        else
          var items := Resolve(s.products, cart).value;
          var short := OutOfStockOf(items);
          assert forall i :: 0 <= i < |cart| ==> items[i] in items;
          if |short| > 0 then
            assert short[0] in items;
            Some(OutOfStockItems(Details(short)))
          else if exists i :: 0 <= i < |cart| && s.products[cart[i].productId].isDeleted then
            Some(Unavailable)
          else None
  }

  /** `addOrderValidator`: the address must be present and 10 to 500
      characters long (counted before trimming); then the cart check. */
  function AddOrderViolations(s: Store, uid: Id, address: Field): (r: seq<Violation>)
    ensures r == [] <==>
      && address.NotEmpty() && LengthIn(address.text, 10, 500)
      && uid in s.users && |s.users[uid].cart| > 0 && Orderable(s.products, s.users[uid].cart)
    ensures address.Missing? ==> |r| >= 2 && r[..2] == [AddressRequired, AddressLength]
  {
    var custom := CartCheck(s, uid);
    Report(address.NotEmpty(), AddressRequired)
      + Report(LengthIn(address.Text(), 10, 500), AddressLength)
      + (if custom.Some? then [custom.value] else [])
  }

  /** What the validator promises the handler: with numeric stocks, a
      request it passes is one the cash-on-delivery checkout accepts. */
  lemma AddOrderValidatorMeansCheckout(s: Store, uid: Id, address: Field)
    requires AddOrderViolations(s, uid, address) == []
    requires forall i :: 0 <= i < |s.users[uid].cart| ==> s.products[s.users[uid].cart[i].productId].stock.Finite?
    ensures Orders.Checkout(s, uid).Ok?
    ensures Orders.AddOrder(s, uid, address.text).Ok?
  {
    var cart := s.users[uid].cart;
    var items := Resolve(s.products, cart).value;
    forall i | 0 <= i < |cart| ensures !IsShort(items[i]) {
      ShortnessAgreesOnNumericStock(items[i]);
    }
  }

  /** The two stock tests part on a NaN stock: one unit of a product whose
      stock is not a number passes the validator and is refused by the
      handler as out of stock. */
  lemma NaNStockPassesValidatorOnly()
    ensures
      var s := Store(
        map[8 := Product("B", Finite(15), NaN, false)],
        map[1 := User("user", [CartEntry(4, 8, 1)])],
        map[], [], 10);
      && AddOrderViolations(s, 1, Given("12 Main Street")) == []
      && Orders.Checkout(s, 1) == Err(OutOfStock(["B"]))
  {
    var s := Store(
      map[8 := Product("B", Finite(15), NaN, false)],
      map[1 := User("user", [CartEntry(4, 8, 1)])],
      map[], [], 10);
    var cart := s.users[1].cart;
    var items := [Item(CartEntry(4, 8, 1), s.products[8])];
    assert cart[1..] == [];
    assert Resolve(s.products, cart[1..]) == Some([]);
    assert items == [items[0]] + [];
    assert Resolve(s.products, cart) == Some(items);
    assert ShortItems(items) == items;
    assert Titles(items) == ["B"];
  }

  // ---------------------------------------------------------------------
  // Listing orders

  /** `getUserOrdersValidator`: an optional page that is an integer of at
      least 1 and an optional limit that is an integer from 1 to 100. */
  function ListingViolations(page: Param, limit: Param): (r: seq<Violation>)
    ensures PageInvalid in r <==> !(page.Absent? || page.IsIntAtLeast(1))
    ensures LimitInvalid in r <==> !(limit.Absent? || limit.IsIntIn(1, 100))
    ensures r == [] <==> ValidPaging(page, limit)
  {
    Report(page.Absent? || page.IsIntAtLeast(1), PageInvalid)
      + Report(limit.Absent? || limit.IsIntIn(1, 100), LimitInvalid)
  }

  // ---------------------------------------------------------------------
  // Payment callback

  /** `verifyStripeValidator`: the order id must be present; `success` must
      be present and exactly "true" or "false". */
  function CallbackViolations(orderId: Option<Id>, success: Field): (r: seq<Violation>)
    ensures r == [] <==> orderId.Some? && (success.Text() == "true" || success.Text() == "false")
    ensures SuccessRequired in r ==> SuccessInvalid in r
    ensures OrderIdRequired in r <==> orderId.None?
  {
    Report(orderId.Some?, OrderIdRequired)
      + Report(success.NotEmpty(), SuccessRequired)
      + Report(success.Text() == "true" || success.Text() == "false", SuccessInvalid)
  }

  /** Once the callback validator has passed, a "false" deletes the order
      and leaves stock and carts alone, and "true" is the only other value. */
  lemma CallbackValidatorSplitsOutcomes(s: Store, orderId: Option<Id>, success: Field)
    requires CallbackViolations(orderId, success) == []
    ensures success.text != "true" ==> success.text == "false"
    ensures success.text == "false" ==>
      var r := Orders.VerifyStripe(s, orderId.value, success.text);
      orderId.value !in r.orders && r.products == s.products && r.users == s.users
  {
  }
}

=== FILE: orders.dfy ===
/**
 * The order workflow: cash-on-delivery checkout, the card-payment checkout
 * that saves a provisional order and lists the payment line items, and the
 * payment callback that confirms or deletes that order.
 */
module Orders {
  import opened Wrappers
  import opened JsValues
  import opened Store
  import opened Stock
  import Cart

  /** The fixed delivery charge added to every order, in currency units. */
  const DeliveryCharges: int := 10

  /** The order lines snapshotted from a populated cart: product, quantity
      and the product's price at this instant, in cart order. */
  function Snapshot(items: seq<Item>): (lines: seq<OrderLine>)
    ensures |lines| == |items|
    ensures forall i :: 0 <= i < |items| ==>
      lines[i] == OrderLine(items[i].entry.productId, items[i].entry.quantity, items[i].product.price)
  {
    if |items| == 0 then []
    else
      var e := items[0].entry;
      [OrderLine(e.productId, e.quantity, items[0].product.price)] + Snapshot(items[1..])
  }

  /** The integer sum of price times quantity, reading a NaN price as 0. */
  function LineSum(lines: seq<OrderLine>): int {
    if |lines| == 0 then 0
    else (if lines[0].price.Finite? then lines[0].price.n * lines[0].quantity else 0) + LineSum(lines[1..])
  }

  /** `totalAmount += price * quantity` over the lines: NaN as soon as one
      price is NaN, and otherwise the exact sum. */
  function LinesTotal(lines: seq<OrderLine>): (t: Num)
    ensures t.NaN? <==> exists i :: 0 <= i < |lines| && lines[i].price.NaN?
    ensures t.Finite? ==> t.n == LineSum(lines)
  {
    if |lines| == 0 then Finite(0)
    else
      assert forall i :: 1 <= i < |lines| ==> lines[i] == lines[1..][i - 1];
      Plus(Times(lines[0].price, lines[0].quantity), LinesTotal(lines[1..]))
  }

  /** The order total: the lines' total plus the delivery charge. */
  function OrderTotal(lines: seq<OrderLine>): (t: Num)
    ensures t.NaN? <==> exists i :: 0 <= i < |lines| && lines[i].price.NaN?
    ensures t.Finite? ==> t.n == LineSum(lines) + DeliveryCharges
  {
    Plus(LinesTotal(lines), Finite(DeliveryCharges))
  }

  /** Steps shared by both checkouts, before anything is written: the user
      must exist, the cart must be non-empty, every product must still
      exist, and no entry may ask for more than the stock. */
  function Checkout(s: Store, uid: Id): (r: Result<seq<Item>, Error>)
    ensures uid !in s.users ==> r == Err(UserNotFound)
    ensures uid in s.users && |s.users[uid].cart| == 0 ==> r == Err(CartEmpty)
    ensures r == Err(Unexpected) <==>
      uid in s.users && |s.users[uid].cart| > 0 && Resolve(s.products, s.users[uid].cart).None?
    ensures r.Err? && r.error.OutOfStock? ==>
      var items := Resolve(s.products, s.users[uid].cart).value;
      && |r.error.titles| > 0
      && r.error.titles == Titles(ShortItems(items))
    ensures r.Ok? <==>
      && uid in s.users && |s.users[uid].cart| > 0 && Resolve(s.products, s.users[uid].cart).Some?
      && forall i :: 0 <= i < |s.users[uid].cart| ==> !IsShort(Resolve(s.products, s.users[uid].cart).value[i])
    ensures r.Ok? ==> r.value == Resolve(s.products, s.users[uid].cart).value
    ensures uid in s.users && |s.users[uid].cart| > 0 && Resolve(s.products, s.users[uid].cart).Some?
      && ShortItems(Resolve(s.products, s.users[uid].cart).value) != []
      ==> r == Err(OutOfStock(Titles(ShortItems(Resolve(s.products, s.users[uid].cart).value))))
  {
    if uid !in s.users then Err(UserNotFound)
    else
      var cart := s.users[uid].cart;
      if |cart| == 0 then Err(CartEmpty)
      else
        var resolved := Resolve(s.products, cart);
        if resolved.None? then Err(Unexpected)
        else
          var items := resolved.value;
          var short := ShortItems(items);
          ShortItemsMembers(items);
          if |short| > 0 then
            assert short[0] in items;
            Err(OutOfStock(Titles(short)))
          else
            assert forall i :: 0 <= i < |items| ==> items[i] in items;
            Ok(items)
  }

  /** The order both checkouts save. */
  function NewOrder(uid: Id, address: string, via: PaymentMethod, items: seq<Item>): Order {
    var lines := Snapshot(items);
    Order(uid, address, via, lines, OrderTotal(lines), false, None)
  }

  /** A placed order and the store after it. */
  datatype Placed = Placed(store: Store, orderId: Id)

  /** POST /api/order, cash on delivery. Every rejection happens before
      anything is written, so a rejected request changes nothing. On success
      the order is saved, each line's stock is decremented with the clamp at
      0, and the cart is emptied. */
  function AddOrder(s: Store, uid: Id, address: string): (r: Result<Placed, Error>)
    ensures r.Err? <==> Checkout(s, uid).Err?
    ensures r.Err? ==> r.error == Checkout(s, uid).error
    ensures r.Ok? ==> r.value.orderId in r.value.store.orders
    ensures r.Ok? ==>
      var cart := s.users[uid].cart;
      var t := r.value.store;
      var o := t.orders[r.value.orderId];
      && r.value.orderId == s.nextId && t.nextId == s.nextId + 1
      && t.orders == s.orders[r.value.orderId := o]
      && o.userId == uid && o.address == address && o.paymentMethod == CashOnDelivery
      && !o.payment && o.status.None?
      && |o.lines| == |cart|
      && (forall i :: 0 <= i < |cart| ==>
            && o.lines[i].productId == cart[i].productId
            && o.lines[i].quantity == cart[i].quantity
            && o.lines[i].price == s.products[cart[i].productId].price)
      && o.totalAmount == OrderTotal(o.lines)
      && t.products == Decrement(s.products, o.lines)
      && t.users == s.users[uid := s.users[uid].(cart := [])]
      && t.wishLists == s.wishLists
  {
    var checked := Checkout(s, uid);
    if checked.Err? then Err(checked.error)
    else
      var id := s.nextId;
      var o := NewOrder(uid, address, CashOnDelivery, checked.value);
      var t := s.(
        orders := s.orders[id := o],
        products := Decrement(s.products, o.lines),
        users := s.users[uid := s.users[uid].(cart := [])],
        nextId := id + 1);
      Ok(Placed(t, id))
  }

  /** Every order id was handed out before `nextId`. */
  predicate OrderIdsBelow(s: Store) {
    forall id :: id in s.orders ==> id < s.nextId
  }

  /** A placed order is a new one: no earlier order is overwritten. */
  lemma AddOrderIsFresh(s: Store, uid: Id, address: string)
    requires OrderIdsBelow(s)
    ensures AddOrder(s, uid, address).Ok? ==>
      && AddOrder(s, uid, address).value.orderId !in s.orders
      && |AddOrder(s, uid, address).value.store.orders| == |s.orders| + 1
      && OrderIdsBelow(AddOrder(s, uid, address).value.store)
  {
  }

  /** For a well-formed cart (one entry per product, quantities at least 1)
      with enough stock for every entry, the order is placed and the stock
      of every ordered product drops by exactly the ordered quantity: the
      clamp at 0 never bites. */
  lemma {:induction false} AddOrderDecrementsExactly(s: Store, uid: Id, address: string)
    requires uid in s.users && |s.users[uid].cart| > 0
    requires Cart.WellFormed(s.users[uid].cart)
    requires EnoughStock(s.products, s.users[uid].cart)
    ensures AddOrder(s, uid, address).Ok?
    ensures StockDroppedBy(s.products, AddOrder(s, uid, address).value.store.products, s.users[uid].cart)
  {
    var cart := s.users[uid].cart;
    EnoughStockIffCheckout(s, uid);
    var lines := AddOrderCopiesCart(s, uid, address);
    LinesDecrementExactly(s.products, cart, lines);
  }

  /** The placed order's lines mirror the cart, and the new stock is their
      decrement. */
  lemma AddOrderCopiesCart(s: Store, uid: Id, address: string) returns (lines: seq<OrderLine>)
    requires AddOrder(s, uid, address).Ok?
    ensures Checkout(s, uid).Ok?
    ensures AddOrder(s, uid, address).value.store.products == Decrement(s.products, lines)
    ensures |lines| == |s.users[uid].cart|
    ensures forall i :: 0 <= i < |s.users[uid].cart| ==>
      lines[i].productId == s.users[uid].cart[i].productId && lines[i].quantity == s.users[uid].cart[i].quantity
  {
    var placed := AddOrder(s, uid, address).value;
    lines := placed.store.orders[placed.orderId].lines;
  }

  /** Every product of the cart lost exactly the entry's quantity. */
  predicate StockDroppedBy(before: map<Id, Product>, after: map<Id, Product>, cart: seq<CartEntry>) {
    forall i :: 0 <= i < |cart| ==>
      && cart[i].productId in before && cart[i].productId in after
      && after[cart[i].productId].stock == Finite(before[cart[i].productId].stock.OrElse(0) - cart[i].quantity)
  }

  /** Every entry's product exists and holds at least the entry's quantity,
      a NaN stock counting as 0. */
  predicate EnoughStock(products: map<Id, Product>, cart: seq<CartEntry>) {
    forall i :: 0 <= i < |cart| ==>
      cart[i].productId in products && cart[i].quantity <= products[cart[i].productId].stock.OrElse(0)
  }

  /** For a non-empty cart with positive quantities, the checkout accepts
      exactly when every entry's product exists and has enough stock. */
  lemma EnoughStockIffCheckout(s: Store, uid: Id)
    requires uid in s.users && |s.users[uid].cart| > 0
    requires Cart.PositiveQuantities(s.users[uid].cart)
    ensures Checkout(s, uid).Ok? <==> EnoughStock(s.products, s.users[uid].cart)
  {
    var cart := s.users[uid].cart;
    if Checkout(s, uid).Ok? {
      CheckoutLeavesEnoughStock(s, uid);
    } else if EnoughStock(s.products, cart) {
      var items := Resolve(s.products, cart).value;
      forall i | 0 <= i < |cart| ensures !IsShort(items[i]) {
        assert items[i] == Item(cart[i], s.products[cart[i].productId]);
      }
      assert false;
    }
  }

  /** A cart the checkout accepts resolves, and no entry asks for more than
      its product's stock. */
  lemma CheckoutLeavesEnoughStock(s: Store, uid: Id)
    requires Checkout(s, uid).Ok?
    requires Cart.PositiveQuantities(s.users[uid].cart)
    ensures EnoughStock(s.products, s.users[uid].cart)
  {
    var cart := s.users[uid].cart;
    var items := Resolve(s.products, cart).value;
    forall i | 0 <= i < |cart|
      ensures cart[i].productId in s.products && cart[i].quantity <= s.products[cart[i].productId].stock.OrElse(0)
    {
      assert items[i] == Item(cart[i], s.products[cart[i].productId]);
      assert !IsShort(items[i]);
    }
  }

  /** Lines copied from a well-formed cart with enough stock each take
      exactly their quantity off their product. */
  lemma LinesDecrementExactly(products: map<Id, Product>, cart: seq<CartEntry>, lines: seq<OrderLine>)
    requires Cart.WellFormed(cart)
    requires |lines| == |cart|
    requires forall i :: 0 <= i < |cart| ==>
      lines[i].productId == cart[i].productId && lines[i].quantity == cart[i].quantity
    requires EnoughStock(products, cart)
    ensures StockDroppedBy(products, Decrement(products, lines), cart)
  {
    assert Cart.DistinctProducts(cart) && Cart.PositiveQuantities(cart);
    forall i | 0 <= i < |cart|
      ensures Decrement(products, lines)[cart[i].productId].stock
        == Finite(products[cart[i].productId].stock.OrElse(0) - cart[i].quantity)
    {
      DistinctLineExact(products, lines, i);
    }
  }

  /** One line of an order whose products are distinct, with enough stock:
      the decrement takes exactly that line's quantity off its product. */
  lemma DistinctLineExact(products: map<Id, Product>, lines: seq<OrderLine>, i: nat)
    requires i < |lines|
    requires forall a, b :: 0 <= a < b < |lines| ==> lines[a].productId != lines[b].productId
    requires forall k :: 0 <= k < |lines| ==> lines[k].quantity >= 1
    requires lines[i].productId in products
    requires lines[i].quantity <= products[lines[i].productId].stock.OrElse(0)
    ensures Decrement(products, lines)[lines[i].productId].stock
      == Finite(products[lines[i].productId].stock.OrElse(0) - lines[i].quantity)
  {
    assert lines[i].productId in LineIds(lines);
    DecrementExact(products, lines, lines[i].productId);
    DemandOfDistinct(lines, i);
  }

  /** In lines with one line per product, a product's demand is its line's
      quantity. */
  lemma {:induction false} DemandOfDistinct(lines: seq<OrderLine>, i: nat)
    requires i < |lines|
    requires forall a, b :: 0 <= a < b < |lines| ==> lines[a].productId != lines[b].productId
    requires lines[i].quantity >= 1
    ensures Demand(lines, lines[i].productId) == lines[i].quantity
  {
    var rest := lines[1..];
    assert forall k :: 1 <= k < |lines| ==> lines[k] == rest[k - 1];
    if i == 0 {
      DemandAbsent(rest, lines[0].productId);
    } else {
      DemandOfDistinct(rest, i - 1);
    }
  }

  // ---------------------------------------------------------------------
  // Card payment

  /** One item of the payment session: a name, a unit amount in minor
      currency units, and a quantity. */
  datatype LineItem = LineItem(name: string, unitAmount: int, quantity: int)

  /** The delivery item appended to every payment session. */
  const DeliveryItem: LineItem := LineItem("Delivery Charges", DeliveryCharges * 100, 1)

  /** `product.title || \`Product ${idx + 1}\``. */
  function ItemName(it: Item, idx: nat): (name: string)
    ensures |name| > 0
  {
    if it.product.title == "" then "Product " + NatToString(idx + 1) else it.product.title
  }

  /** The position of the first item whose price is NaN; `|items|` when
      every price is a number. */
  function FirstNaNPrice(items: seq<Item>): (k: nat)
    ensures k <= |items|
    ensures forall j :: 0 <= j < k ==> items[j].product.price.Finite?
    ensures k < |items| ==> items[k].product.price.NaN?
  {
    if |items| == 0 || items[0].product.price.NaN? then 0
    else
      assert forall j :: 1 <= j < |items| ==> items[j] == items[1..][j - 1];
      1 + FirstNaNPrice(items[1..])
  }

  /** The payment item for one cart item at position `idx`: the price in
      minor units, and a zero quantity read as 1. */
  function LineItemOf(it: Item, idx: nat): (li: LineItem)
    requires it.product.price.Finite?
    ensures |li.name| > 0 && (it.product.title != "" ==> li.name == it.product.title)
    ensures li.unitAmount == 100 * it.product.price.n
    ensures it.entry.quantity != 0 ==> li.quantity == it.entry.quantity
    ensures it.entry.quantity == 0 ==> li.quantity == 1
  {
    LineItem(ItemName(it, idx), 100 * it.product.price.n, IntOr(it.entry.quantity, 1))
  }

  /** `cart.map(...)` building the payment items from position `idx` on;
      the first NaN price throws, naming that item. */
  function PaymentItems(items: seq<Item>, idx: nat): (r: Result<seq<LineItem>, Error>)
    ensures r.Err? <==> FirstNaNPrice(items) < |items|
    ensures r.Err? ==>
      r.error == InvalidPrice(ItemName(items[FirstNaNPrice(items)], idx + FirstNaNPrice(items)))
    ensures r.Ok? ==> |r.value| == |items| && forall i :: 0 <= i < |items| ==>
      items[i].product.price.Finite? && r.value[i] == LineItemOf(items[i], idx + i)
  {
    if |items| == 0 then Ok([])
    else
      var head := items[0];
      if head.product.price.NaN? then Err(InvalidPrice(ItemName(head, idx)))
      else
        var rest := PaymentItems(items[1..], idx + 1);
        PaymentItemsStep(items, idx, rest);
        if rest.Err? then Err(rest.error)
        else Ok([LineItemOf(head, idx)] + rest.value)
  }

  /** The step of `PaymentItems` past a first item with a numeric price. */
  lemma PaymentItemsStep(items: seq<Item>, idx: nat, rest: Result<seq<LineItem>, Error>)
    requires |items| > 0 && items[0].product.price.Finite?
    requires rest.Err? <==> FirstNaNPrice(items[1..]) < |items| - 1
    requires rest.Err? ==>
      rest.error == InvalidPrice(ItemName(items[1..][FirstNaNPrice(items[1..])], idx + 1 + FirstNaNPrice(items[1..])))
    requires rest.Ok? ==> |rest.value| == |items| - 1 && forall i :: 0 <= i < |items| - 1 ==>
      items[1..][i].product.price.Finite? && rest.value[i] == LineItemOf(items[1..][i], idx + 1 + i)
    ensures FirstNaNPrice(items) == 1 + FirstNaNPrice(items[1..])
    ensures rest.Err? ==> items[FirstNaNPrice(items)] == items[1..][FirstNaNPrice(items[1..])]
    ensures rest.Ok? ==>
      var r := [LineItemOf(items[0], idx)] + rest.value;
      forall i :: 0 <= i < |items| ==> items[i].product.price.Finite? && r[i] == LineItemOf(items[i], idx + i)
  {
    assert forall j :: 1 <= j < |items| ==> items[j] == items[1..][j - 1];
  }

  /** What a payment session charges: unit amount times quantity, summed. */
  function Charged(items: seq<LineItem>): int {
    if |items| == 0 then 0 else items[0].unitAmount * items[0].quantity + Charged(items[1..])
  }

  /** The payment session the buyer is sent to. */
  datatype Session = Session(orderId: Id, lineItems: seq<LineItem>)

  /** The card checkout's answer together with the store it leaves behind:
      a failure after the order was saved does not undo the save. */
  datatype CardCheckout = CardCheckout(store: Store, result: Result<Session, Error>)

  /** POST /api/order-stripe, up to the session request: the same checks as
      cash on delivery, then a provisional unpaid order is saved, stock and
      cart untouched, and the session items are listed. */
  function AddOrderStripe(s: Store, uid: Id, address: string): (r: CardCheckout)
    ensures r.store.products == s.products && r.store.users == s.users
    ensures r.store.wishLists == s.wishLists
    ensures Checkout(s, uid).Err? ==> r == CardCheckout(s, Err(Checkout(s, uid).error))
    ensures Checkout(s, uid).Ok? ==> s.nextId in r.store.orders
    ensures Checkout(s, uid).Ok? ==>
      var o := r.store.orders[s.nextId];
      && r.store.orders == s.orders[s.nextId := o]
      && o.paymentMethod == Card && !o.payment && o.userId == uid
      && |o.lines| == |s.users[uid].cart|
    ensures Checkout(s, uid).Ok? ==>
      var items := Checkout(s, uid).value;
      r.store.orders[s.nextId] == Order(uid, address, Card, Snapshot(items), OrderTotal(Snapshot(items)), false, None)
    ensures Checkout(s, uid).Ok? ==>
      var items := Checkout(s, uid).value;
      && (r.result.Err? <==> FirstNaNPrice(items) < |items|)
      && (r.result.Err? ==> r.result.error == PaymentItems(items, 0).error)
      && (r.result.Ok? ==> r.result.value == Session(s.nextId, PaymentItems(items, 0).value + [DeliveryItem]))
    ensures r.result.Err? && r.result.error.InvalidPrice? ==> s.nextId in r.store.orders
    ensures r.result.Ok? ==>
      var li := r.result.value.lineItems;
      && r.result.value.orderId == s.nextId
      && |li| == |s.users[uid].cart| + 1
      && li[|li| - 1] == DeliveryItem
      && li[|li| - 1].unitAmount == 1000
  {
    var checked := Checkout(s, uid);
    if checked.Err? then CardCheckout(s, Err(checked.error))
    else
      var id := s.nextId;
      var o := NewOrder(uid, address, Card, checked.value);
      var saved := s.(orders := s.orders[id := o], nextId := id + 1);
      var listed := PaymentItems(checked.value, 0);
      if listed.Err? then CardCheckout(saved, Err(listed.error))
      else CardCheckout(saved, Ok(Session(id, listed.value + [DeliveryItem])))
  }

  /** With no zero quantities, the payment items charge the item lines'
      amount in minor units. */
  lemma {:induction false} PaymentItemsCharge(items: seq<Item>, idx: nat)
    requires PaymentItems(items, idx).Ok?
    requires forall i :: 0 <= i < |items| ==> items[i].entry.quantity != 0
    ensures Charged(PaymentItems(items, idx).value) == 100 * LineSum(Snapshot(items))
  {
    if |items| > 0 {
      assert forall i :: 1 <= i < |items| ==> items[i] == items[1..][i - 1];
      PaymentItemsCharge(items[1..], idx + 1);
      var li := PaymentItems(items, idx).value;
      assert li[1..] == PaymentItems(items[1..], idx + 1).value;
      assert Snapshot(items)[1..] == Snapshot(items[1..]);
    }
  }

  lemma {:induction false} ChargedAppend(a: seq<LineItem>, b: seq<LineItem>)
    ensures Charged(a + b) == Charged(a) + Charged(b)
  {
    if |a| > 0 {
      assert (a + b)[1..] == a[1..] + b;
      ChargedAppend(a[1..], b);
    } else {
      assert a + b == b;
    }
  }

  /** The payment session charges exactly 100 times the saved order's total
      when no cart quantity is 0 (a well-formed cart has none). */
  lemma SessionChargesOrderTotal(s: Store, uid: Id, address: string)
    requires AddOrderStripe(s, uid, address).result.Ok?
    requires Cart.WellFormed(s.users[uid].cart)
    ensures
      var r := AddOrderStripe(s, uid, address);
      var o := r.store.orders[r.result.value.orderId];
      o.totalAmount.Finite? && Charged(r.result.value.lineItems) == 100 * o.totalAmount.n
  {
    var items := Checkout(s, uid).value;
    var listed := PaymentItems(items, 0).value;
    PaymentItemsCharge(items, 0);
    ChargedAppend(listed, [DeliveryItem]);
    assert Charged([DeliveryItem]) == 1000;
    var lines := Snapshot(items);
    assert forall i :: 0 <= i < |lines| ==> lines[i].price.Finite?;
  }

  // ---------------------------------------------------------------------
  // Payment callback

  /** GET /api/order/verify: on `success === "true"` the order is marked
      paid and processing and, when it has lines, every line's stock is
      decremented and the owner's cart emptied; any other value deletes the
      order. Nothing guards against a second confirmation. */
  function VerifyStripe(s: Store, orderId: Id, success: string): (r: Store)
    ensures success != "true" ==>
      && orderId !in r.orders
      && r.orders == s.orders - {orderId}
      && r.products == s.products && r.users == s.users && r.wishLists == s.wishLists
    ensures success == "true" && orderId !in s.orders ==> r == s
    ensures success == "true" && orderId in s.orders ==>
      var o := s.orders[orderId];
      && r.orders == s.orders[orderId := o.(payment := true, status := Some(Processing))]
      && r.wishLists == s.wishLists && r.nextId == s.nextId
      && (|o.lines| > 0 ==>
            && r.products == Decrement(s.products, o.lines)
            && (o.userId in s.users ==> r.users == s.users[o.userId := s.users[o.userId].(cart := [])])
            && (o.userId !in s.users ==> r.users == s.users))
      && (|o.lines| == 0 ==> r.products == s.products && r.users == s.users)
  {
    if success == "true" then
      if orderId !in s.orders then s
      else
        var o := s.orders[orderId];
        var confirmed := s.(orders := s.orders[orderId := o.(payment := true, status := Some(Processing))]);
        if |o.lines| == 0 then confirmed
        else
          var users := if o.userId in s.users then s.users[o.userId := s.users[o.userId].(cart := [])] else s.users;
          confirmed.(products := Decrement(s.products, o.lines), users := users)
    else s.(orders := s.orders - {orderId})
  }

  /** A confirmed card payment never leaves a negative stock on the
      products of its order, and leaves every other product alone. */
  lemma VerifyStripeStockNonNegative(s: Store, orderId: Id)
    requires orderId in s.orders
    ensures forall p :: p in s.products && p in LineIds(s.orders[orderId].lines) ==>
      VerifyStripe(s, orderId, "true").products[p].stock.Finite?
      && VerifyStripe(s, orderId, "true").products[p].stock.n >= 0
    ensures forall p :: p in s.products && p !in LineIds(s.orders[orderId].lines) ==>
      VerifyStripe(s, orderId, "true").products[p] == s.products[p]
  {
  }

  /** The callback as written decrements again when the same confirmation
      arrives twice: one line of 2 units against a stock of 5 leaves 3 after
      one call and 1 after two. */
  lemma VerifyStripeRepeatDecrementsTwice()
    ensures
      var s := Store(
        map[7 := Product("A", Finite(20), Finite(5), false)],
        map[1 := User("user", [])],
        map[3 := Order(1, "12 Main Street", Card, [OrderLine(7, 2, Finite(20))], Finite(50), false, None)],
        [], 10);
      && VerifyStripe(s, 3, "true").products[7].stock == Finite(3)
      && VerifyStripe(VerifyStripe(s, 3, "true"), 3, "true").products[7].stock == Finite(1)
  {
  }

  /** The callback with the missing guard: an order already marked paid is
      final, so neither a repeated confirmation nor a late cancellation
      touches it. */
  function VerifyStripeGuarded(s: Store, orderId: Id, success: string): (r: Store)
    ensures orderId in s.orders && s.orders[orderId].payment ==> r == s
    ensures !(orderId in s.orders && s.orders[orderId].payment) ==> r == VerifyStripe(s, orderId, success)
  {
    if orderId in s.orders && s.orders[orderId].payment then s
    else VerifyStripe(s, orderId, success)
  }

  /** The guarded callback is idempotent: a second identical call changes
      nothing, so stock is decremented at most once per order. */
  lemma VerifyStripeGuardedIdempotent(s: Store, orderId: Id, success: string)
    ensures VerifyStripeGuarded(VerifyStripeGuarded(s, orderId, success), orderId, success)
         == VerifyStripeGuarded(s, orderId, success)
  {
  }

  // ---------------------------------------------------------------------
  // Worked examples

  /** A cart of 2 units of a product priced 20 with 5 in stock: the order
      total is 2 * 20 + 10 = 50, the stock becomes 3 and the cart empties. */
  lemma PlaceOrderExample()
    ensures
      var s := Store(
        map[7 := Product("A", Finite(20), Finite(5), false)],
        map[1 := User("user", [CartEntry(4, 7, 2)])],
        map[], [], 10);
      var r := AddOrder(s, 1, "12 Main Street");
      && r.Ok?
      && r.value.store.orders[r.value.orderId].totalAmount == Finite(50)
      && r.value.store.products[7].stock == Finite(3)
      && r.value.store.users[1].cart == []
  {
    var s := Store(
      map[7 := Product("A", Finite(20), Finite(5), false)],
      map[1 := User("user", [CartEntry(4, 7, 2)])],
      map[], [], 10);
    var items := [Item(CartEntry(4, 7, 2), s.products[7])];
    var cart := s.users[1].cart;
    assert cart[1..] == [];
    assert Resolve(s.products, cart[1..]) == Some([]);
    assert items == [items[0]] + [];
    assert Resolve(s.products, cart) == Some(items);
    assert ShortItems(items) == [];
    var lines := Snapshot(items);
    assert lines == [OrderLine(7, 2, Finite(20))];
    assert LineIds(lines) == {7};
  }

  /** A cart asking 3 units of a product with 1 in stock is rejected with a
      message naming that product, and nothing is written. */
  lemma OutOfStockExample()
    ensures
      var s := Store(
        map[8 := Product("B", Finite(15), Finite(1), false)],
        map[1 := User("user", [CartEntry(4, 8, 3)])],
        map[], [], 10);
      AddOrder(s, 1, "12 Main Street") == Err(OutOfStock(["B"]))
  {
    var s := Store(
      map[8 := Product("B", Finite(15), Finite(1), false)],
      map[1 := User("user", [CartEntry(4, 8, 3)])],
      map[], [], 10);
    var items := [Item(CartEntry(4, 8, 3), s.products[8])];
    var cart := s.users[1].cart;
    assert cart[1..] == [];
    assert Resolve(s.products, cart[1..]) == Some([]);
    assert items == [items[0]] + [];
    assert Resolve(s.products, cart) == Some(items);
    assert ShortItems(items) == items;
    assert items[1..] == [];
    assert Titles(items) == ["B"];
    assert Checkout(s, 1) == Err(OutOfStock(["B"]));
  }
}

=== FILE: pagination.dfy ===
/**
 * Page arithmetic of the listing handlers (products and a user's orders):
 * defaulting of `page` and `limit`, the skip count, and the page count.
 */
module Pagination {
  import opened JsValues

  const DefaultPage: int := 1
  const DefaultLimit: int := 10

  /** `+req.query.page || 1`: an absent, zero or non-numeric page is 1. */
  function PageOf(q: Param): (page: int)
    ensures page != 0
    ensures q.IntText? && q.v != 0 ==> page == q.v
    ensures !(q.IntText? && q.v != 0) ==> page == DefaultPage
  {
    q.ToNum().OrElse(DefaultPage)
  }

  /** `+req.query.limit || 10`: an absent, zero or non-numeric limit is 10. */
  function LimitOf(q: Param): (limit: int)
    ensures limit != 0
    ensures q.IntText? && q.v != 0 ==> limit == q.v
    ensures !(q.IntText? && q.v != 0) ==> limit == DefaultLimit
  {
    q.ToNum().OrElse(DefaultLimit)
  }

  /** `Math.ceil(a / b)` for a non-zero divisor, on Dafny's Euclidean
      division. */
  function CeilDiv(a: int, b: int): (c: int)
    requires b != 0
    ensures b > 0 ==> (c - 1) * b < a <= c * b
    ensures b < 0 ==> c * b <= a < (c - 1) * b
  {
    if b > 0 then
      CeilPositive(a, b);
      -((-a) / b)
    else
      CeilNegative(a, b);
      -(a / (-b))
  }

  lemma CeilPositive(a: int, b: int)
    requires b > 0
    ensures var c := -((-a) / b); (c - 1) * b < a <= c * b
  {
    var q := (-a) / b;
    var m := (-a) % b;
    assert -a == q * b + m && 0 <= m < b;
    MulNeg(q, b);
    MulPred(-q, b);
  }

  lemma CeilNegative(a: int, b: int)
    requires b < 0
    ensures var c := -(a / (-b)); c * b <= a < (c - 1) * b
  {
    var d := -b;
    var q := a / d;
    var m := a % d;
    assert a == q * d + m && 0 <= m < d;
    MulNeg(-q, d);
    MulPred(-q, b);
  }

  lemma MulNeg(x: int, y: int)
    ensures (-x) * y == -(x * y) && x * (-y) == -(x * y)
  {
  }

  lemma MulPred(x: int, y: int)
    ensures (x - 1) * y == x * y - y
  {
  }

  /** The pagination block of a listing. */
  datatype PageInfo = PageInfo(total: nat, page: int, limit: int, skip: int, totalPages: int)

  /** Pagination of `total` documents for the given query parameters. */
  function Paginate(total: nat, pageParam: Param, limitParam: Param): (r: PageInfo)
    ensures r.total == total
    ensures r.page == PageOf(pageParam) && r.limit == LimitOf(limitParam)
    ensures r.skip == (r.page - 1) * r.limit
    ensures r.limit > 0 ==> (r.totalPages - 1) * r.limit < total <= r.totalPages * r.limit
    ensures r.page >= 1 && r.limit > 0 ==> r.skip >= 0
    ensures r.page < 1 && r.limit > 0 ==> r.skip < 0
  {
    var page := PageOf(pageParam);
    var limit := LimitOf(limitParam);
    SkipSign(page, limit);
    PageInfo(total, page, limit, (page - 1) * limit, CeilDiv(total, limit))
  }

  /** `hasNextPage: page < Math.ceil(total / limit)`: with a positive limit,
      exactly when documents remain past the first `page` pages. */
  function HasNextPage(r: PageInfo): (next: bool)
    requires r.limit != 0
    ensures r.limit > 0 ==> (next <==> r.page * r.limit < r.total)
  {
    CeilCompare(r.page, r.total, r.limit);
    r.page < CeilDiv(r.total, r.limit)
  }

  /** Comparing with a rounded-up quotient is comparing with the dividend. */
  lemma CeilCompare(p: int, a: int, b: int)
    requires b != 0
    ensures b > 0 ==> (p < CeilDiv(a, b) <==> p * b < a)
  {
    if b > 0 {
      var c := CeilDiv(a, b);
      if p < c {
        MulMonotone(p, c - 1, b);
      } else {
        MulMonotone(c, p, b);
      }
    }
  }

  /** `hasPrevPage: page > 1`. */
  predicate HasPrevPage(r: PageInfo) {
    r.page > 1
  }

  /** With a positive limit there is a next page exactly when some document
      lies beyond the current page. */
  lemma HasNextPageIffMoreDocuments(total: nat, pageParam: Param, limitParam: Param)
    requires LimitOf(limitParam) > 0
    ensures var r := Paginate(total, pageParam, limitParam);
      HasNextPage(r) <==> r.skip + r.limit < total
  {
    var r := Paginate(total, pageParam, limitParam);
    MulPred(r.page, r.limit);
  }

  /** With a positive limit, the skip is negative exactly for pages below 1. */
  lemma SkipSign(page: int, limit: int)
    ensures limit > 0 ==> ((page - 1) * limit < 0 <==> page < 1)
  {
    if limit > 0 {
      if page >= 1 {
        MulNonNegative(page - 1, limit);
      } else {
        MulMonotone(page - 1, -1, limit);
      }
    }
  }

  lemma MulMonotone(a: int, b: int, l: int)
    requires a <= b && l > 0
    ensures a * l <= b * l
  {
  }

  /** What the listing validators accept: an optional page that is an
      integer of at least 1, and an optional limit from 1 to 100. */
  predicate ValidPaging(page: Param, limit: Param) {
    && (page.Absent? || page.IsIntAtLeast(1))
    && (limit.Absent? || limit.IsIntIn(1, 100))
  }

  /** Parameters the listing validators accept give a page of at least 1, a
      limit from 1 to 100, and a non-negative skip and page count. */
  lemma ValidPagingBounds(total: nat, page: Param, limit: Param)
    requires ValidPaging(page, limit)
    ensures var p := Paginate(total, page, limit);
      && p.page >= 1 && 1 <= p.limit <= 100
      && p.skip >= 0 && p.totalPages >= 0
  {
    var p := Paginate(total, page, limit);
    MulNonNegative(p.page - 1, p.limit);
    if p.totalPages < 0 {
      MulNonNegative(-p.totalPages, p.limit);
      MulNeg(p.totalPages, p.limit);
      assert false;
    }
  }

  lemma MulNonNegative(a: int, b: int)
    requires a >= 0 && b >= 0
    ensures a * b >= 0
  {
  }
}

=== FILE: review_validation.dfy ===
/**
 * The review request validators of `backend/middleware/reviewValidation.js`:
 * posting a review, updating or deleting one, and listing the reviews of a
 * user or of a product. Updating and deleting are open to the review's
 * author and to administrators only.
 */
module ReviewValidation {
  import opened Wrappers
  import opened JsValues
  import opened Store
  import opened Checks

  /** A stored review: who wrote it, and about which product. */
  datatype Review = Review(author: Id, productId: Id)

  datatype Violation =
    | ProductMissing        // "this product doesn't exist."
    | CommentLength         // "Comment length should be from 5 to 1000"
    | RatingRange           // "Rating should be from 1 to 5 integer."
    | WrongReview           // "Wrong review."
    | RequesterMissing      // `user.role` read on a null user
    | Forbidden             // "Not Authorized."
    | UserUnknown           // "User does not exist."
    | ProductUnknown        // "Product does not exist."

  const MinCommentLength: int := 5
  const MaxCommentLength: int := 1000

  /** The comment chain: trimmed, then 5 to 1000 characters; an absent
      comment trims to "" and fails. */
  function CommentViolations(comment: Field): (r: seq<Violation>)
    ensures r == [] || r == [CommentLength]
    ensures r == [] <==> MinCommentLength <= |Trim(comment.Text())| <= MaxCommentLength
    ensures comment.Missing? ==> r == [CommentLength]
  {
    Report(LengthIn(Trim(comment.Text()), MinCommentLength, MaxCommentLength), CommentLength)
  }

  /** The rating chain: an integer from 1 to 5. */
  function RatingViolations(rating: Param): (r: seq<Violation>)
    ensures r == [] || r == [RatingRange]
    ensures r == [] <==> rating.IntText? && 1 <= rating.v <= 5
  {
    Report(rating.IsIntIn(1, 5), RatingRange)
  }

  /** `postReviewValidator`: the product must exist (an absent id finds
      none); then the comment and the rating chains. */
  function PostViolations(products: map<Id, Product>, productId: Option<Id>, comment: Field, rating: Param): (r: seq<Violation>)
    ensures r == [] <==>
      && productId.Some? && productId.value in products
      && MinCommentLength <= |Trim(comment.Text())| <= MaxCommentLength
      && rating.IntText? && 1 <= rating.v <= 5
    ensures ProductMissing in r <==> productId.None? || productId.value !in products
    ensures |r| <= 3
  {
    Report(productId.Some? && productId.value in products, ProductMissing)
      + CommentViolations(comment)
      + RatingViolations(rating)
  }

  /** The custom check on `reviewId` shared by update and delete: the review
      must exist; its author passes without the user being read; anyone
      else must be a user whose role is "admin". A requester with no user
      record makes `user.role` throw, which rejects the request too. */
  function Authorization(reviews: map<Id, Review>, users: map<Id, User>, requester: Id, reviewId: Id): (r: seq<Violation>)
    ensures |r| <= 1
    ensures r == [] <==>
      && reviewId in reviews
      && (requester == reviews[reviewId].author || (requester in users && users[requester].role == "admin"))
    ensures r == [WrongReview] <==> reviewId !in reviews
  {
    if reviewId !in reviews then [WrongReview]
    else if requester == reviews[reviewId].author then []
    else if requester !in users then [RequesterMissing]
    else Report(users[requester].role == "admin", Forbidden)
  }

  /** `deleteUserReviewValidator`. */
  function DeleteViolations(reviews: map<Id, Review>, users: map<Id, User>, requester: Id, reviewId: Id): (r: seq<Violation>)
    ensures r == [] ==> reviewId in reviews
    ensures reviewId in reviews && requester == reviews[reviewId].author ==> r == []
  {
    Authorization(reviews, users, requester, reviewId)
  }

  /** `updateUserReviewValidator`: the authorization check, then the same
      comment and rating chains as on post. */
  function UpdateViolations(reviews: map<Id, Review>, users: map<Id, User>, requester: Id, reviewId: Id,
                            comment: Field, rating: Param): (r: seq<Violation>)
    ensures r == [] ==> reviewId in reviews
    ensures CommentLength in r <==> CommentViolations(comment) != []
    ensures RatingRange in r <==> RatingViolations(rating) != []
    ensures |r| <= 3
  {
    var a := Authorization(reviews, users, requester, reviewId);
    var c := CommentViolations(comment);
    var g := RatingViolations(rating);
    assert CommentLength !in a && RatingRange !in a;
    a + (c + g)
  }

  /** Update and delete grant the same people access: an update passes
      exactly when a delete by the same requester would, and the new comment
      and rating pass their chains. */
  lemma UpdateAndDeleteShareAuthority(reviews: map<Id, Review>, users: map<Id, User>, requester: Id, reviewId: Id,
                                      comment: Field, rating: Param)
    ensures UpdateViolations(reviews, users, requester, reviewId, comment, rating) == []
      <==> && DeleteViolations(reviews, users, requester, reviewId) == []
           && CommentViolations(comment) == [] && RatingViolations(rating) == []
  {
  }

  /** Who may change a review: its author, whether or not the author still
      has a user record, and any administrator; no one else. */
  lemma OnlyAuthorOrAdmin(reviews: map<Id, Review>, users: map<Id, User>, requester: Id, reviewId: Id)
    requires reviewId in reviews
    ensures requester == reviews[reviewId].author ==> DeleteViolations(reviews, users, requester, reviewId) == []
    ensures requester != reviews[reviewId].author && (requester !in users || users[requester].role != "admin")
      ==> DeleteViolations(reviews, users, requester, reviewId) != []
    ensures requester in users && users[requester].role == "admin"
      ==> DeleteViolations(reviews, users, requester, reviewId) == []
  {
  }

  /** Blanks around a comment do not change the verdict: the length is
      counted after trimming. */
  lemma {:induction false} PaddedCommentSameVerdict(before: string, text: string, after: string)
    requires forall i :: 0 <= i < |before| ==> IsBlank(before[i])
    requires forall i :: 0 <= i < |after| ==> IsBlank(after[i])
    requires IsTrimmed(text) && |text| > 0
    ensures CommentViolations(Given(before + text + after)) == CommentViolations(Given(text))
    ensures CommentViolations(Given(before + text + after)) == [] <==> MinCommentLength <= |text| <= MaxCommentLength
  {
    TrimPadded(before, text, after);
    TrimmedIsFixpoint(text);
  }

  /** `getUserReviewsValidator`: the user must exist. */
  function UserReviewsViolations(users: map<Id, User>, userId: Id): (r: seq<Violation>)
    ensures r == [] <==> userId in users
    ensures r != [] ==> r == [UserUnknown]
  {
    Report(userId in users, UserUnknown)
  }

  /** `getProductReviewsValidator`: the product must exist, deleted or not. */
  function ProductReviewsViolations(products: map<Id, Product>, productId: Id): (r: seq<Violation>)
    ensures r == [] <==> productId in products
    ensures r != [] ==> r == [ProductUnknown]
  {
    Report(productId in products, ProductUnknown)
  }

  /** A soft-deleted product still exists for the review validators: it can
      be reviewed and its reviews listed. */
  lemma DeletedProductStillReviewable(products: map<Id, Product>, productId: Id, comment: string)
    requires productId in products && products[productId].isDeleted
    requires IsTrimmed(comment) && 5 <= |comment| <= 1000
    ensures PostViolations(products, Some(productId), Given(comment), IntText(5)) == []
    ensures ProductReviewsViolations(products, productId) == []
  {
    TrimmedIsFixpoint(comment);
  }
}

=== FILE: seqs.dfy ===
/**
 * Sequence operations the wishlist handlers perform through JavaScript
 * `Set`s and `Array.prototype.filter`: counting, de-duplication in
 * first-occurrence order, and dropping every occurrence of a value.
 */
module Seqs {

  /** Number of occurrences of `x` in `s`. */
  function Count<T(==,!new)>(s: seq<T>, x: T): nat
  {
    if |s| == 0 then 0 else (if s[0] == x then 1 else 0) + Count(s[1..], x)
  }

  /** No value occurs twice. */
  predicate Distinct<T(==,!new)>(s: seq<T>) {
    forall i, j :: 0 <= i < j < |s| ==> s[i] != s[j]
  }

  lemma {:induction false} CountPositiveIffIn<T(!new)>(s: seq<T>, x: T)
    ensures Count(s, x) > 0 <==> x in s
  {
    if |s| > 0 {
      CountPositiveIffIn(s[1..], x);
      assert s == [s[0]] + s[1..];
    }
  }

  /** In a sequence without duplicates every member occurs exactly once. */
  lemma {:induction false} DistinctCountOne<T(!new)>(s: seq<T>, x: T)
    requires Distinct(s) && x in s
    ensures Count(s, x) == 1
  {
    if s[0] == x {
      CountPositiveIffIn(s[1..], x);
    } else {
      DistinctCountOne(s[1..], x);
    }
  }

  /** `Array.from(new Set(s))`: the values of `s`, each once, in the order of
      their first occurrence. Built from the left, as a `Set` is filled. */
  function Dedup<T(==,!new)>(s: seq<T>): (r: seq<T>)
    ensures Distinct(r)
    ensures forall x :: x in r <==> x in s
    ensures |r| <= |s|
  {
    if |s| == 0 then []
    else
      var init := s[..|s| - 1];
      var last := s[|s| - 1];
      assert s == init + [last];
      var d := Dedup(init);
      if last in d then d else d + [last]
  }

  /** Adding `x` to the set of `s` and listing it: `x` goes at the end exactly
      when it was not there before. */
  lemma DedupSnoc<T(!new)>(s: seq<T>, x: T)
    ensures Dedup(s + [x]) == if x in s then Dedup(s) else Dedup(s) + [x]
  {
    assert (s + [x])[..|s + [x]| - 1] == s;
  }

  /** De-duplicating a sequence that has no duplicates changes nothing. */
  lemma {:induction false} DedupOfDistinct<T(!new)>(s: seq<T>)
    requires Distinct(s)
    ensures Dedup(s) == s
  {
    if |s| > 0 {
      var init := s[..|s| - 1];
      assert s == init + [s[|s| - 1]];
      DedupOfDistinct(init);
      DedupSnoc(init, s[|s| - 1]);
    }
  }

  /** `s.filter(y => y !== x)`. */
  function RemoveAll<T(==,!new)>(s: seq<T>, x: T): (r: seq<T>)
    ensures x !in r
    ensures forall y :: y != x ==> (y in r <==> y in s)
    ensures |r| == |s| - Count(s, x)
  {
    if |s| == 0 then []
    else if s[0] == x then RemoveAll(s[1..], x)
    else [s[0]] + RemoveAll(s[1..], x)
  }

  /** Filtering distributes over concatenation: the values that stay keep
      their relative order. */
  lemma {:induction false} RemoveAllConcat<T(!new)>(a: seq<T>, b: seq<T>, x: T)
    ensures RemoveAll(a + b, x) == RemoveAll(a, x) + RemoveAll(b, x)
  {
    if |a| > 0 {
      assert (a + b)[1..] == a[1..] + b;
      RemoveAllConcat(a[1..], b, x);
    } else {
      assert a + b == b;
    }
  }

  /** Removing a value that does not occur changes nothing. */
  lemma {:induction false} RemoveAllAbsent<T(!new)>(s: seq<T>, x: T)
    requires x !in s
    ensures RemoveAll(s, x) == s
  {
    if |s| > 0 {
      RemoveAllAbsent(s[1..], x);
      assert s == [s[0]] + s[1..];
    }
  }

  /** Filtering cannot introduce duplicates. */
  lemma {:induction false} RemoveAllDistinct<T(!new)>(s: seq<T>, x: T)
    requires Distinct(s)
    ensures Distinct(RemoveAll(s, x))
  {
    if |s| > 0 {
      RemoveAllDistinct(s[1..], x);
      if s[0] != x {
        assert s[0] !in s[1..];
      }
    }
  }
}

=== FILE: stock.dfy ===
/**
 * Stock reconciliation: resolving cart entries to their products, finding
 * the entries that ask for more than the stock, and the clamped stock
 * decrement applied line by line once an order is committed.
 */
module Stock {
  import opened Wrappers
  import opened JsValues
  import opened Store

  /** A cart entry with its product populated (`populate('cart.productId')`). */
  datatype Item = Item(entry: CartEntry, product: Product)

  /** Populating a cart: `None` when some entry's product no longer exists,
      which leaves `item.productId` null and makes the first property read
      on it throw. */
  function Resolve(products: map<Id, Product>, cart: seq<CartEntry>): (r: Option<seq<Item>>)
    ensures r.None? <==> exists i :: 0 <= i < |cart| && cart[i].productId !in products
    ensures r.Some? ==> |r.value| == |cart|
    ensures r.Some? ==> forall i :: 0 <= i < |cart| ==>
      r.value[i] == Item(cart[i], products[cart[i].productId])
  {
    if |cart| == 0 then Some([])
    else if cart[0].productId !in products then None
    else
      var rest := Resolve(products, cart[1..]);
      assert forall i :: 1 <= i < |cart| ==> cart[i] == cart[1..][i - 1];
      if rest.None? then
        assert exists i :: 0 <= i < |cart[1..]| && cart[1..][i].productId !in products;
        None
      else Some([Item(cart[0], products[cart[0].productId])] + rest.value)
  }

  /** The shortage test of the order handlers: `(Number(quantity) || 0) >
      (Number(stock) || 0)`, so a NaN or missing stock counts as 0. */
  function IsShort(it: Item): (short: bool)
    ensures it.product.stock.NaN? || it.product.stock.n == 0 ==> (short <==> it.entry.quantity > 0)
    ensures it.product.stock.Finite? && it.product.stock.n != 0 && it.entry.quantity != 0
      ==> (short <==> it.entry.quantity > it.product.stock.n)
    ensures it.entry.quantity == 0 ==> (short <==> it.product.stock.OrElse(0) < 0)
  {
    IntOr(it.entry.quantity, 0) > it.product.stock.OrElse(0)
  }

  /** The short items, in cart order: the reference for `validateStock`. */
  function ShortItems(items: seq<Item>): seq<Item>
  {
    if |items| == 0 then []
    else
      var last := items[|items| - 1];
      ShortItems(items[..|items| - 1]) + (if IsShort(last) then [last] else [])
  }

  /** An item is reported exactly when it is in the cart and short. */
  lemma {:induction false} ShortItemsMembers(items: seq<Item>)
    ensures forall x :: x in ShortItems(items) <==> x in items && IsShort(x)
  {
    if |items| > 0 {
      ShortItemsMembers(items[..|items| - 1]);
      assert items == items[..|items| - 1] + [items[|items| - 1]];
    }
  }

  /** Shortages of a concatenation are the shortages of each part, in order:
      the filter keeps the cart's order. */
  lemma {:induction false} ShortItemsConcat(a: seq<Item>, b: seq<Item>)
    ensures ShortItems(a + b) == ShortItems(a) + ShortItems(b)
  {
    if |b| == 0 {
      assert a + b == a;
    } else {
      assert (a + b)[..|a + b| - 1] == a + b[..|b| - 1];
      ShortItemsConcat(a, b[..|b| - 1]);
    }
  }

  /** `validateStock(cart)`: the out-of-stock items, scanned in cart order. */
  method ValidateStock(items: seq<Item>) returns (short: seq<Item>)
    ensures short == ShortItems(items)
    ensures forall x :: x in short <==> x in items && IsShort(x)
  {
    short := [];
    var i := 0;
    while i < |items|
      invariant 0 <= i <= |items|
      invariant short == ShortItems(items[..i])
    {
      assert items[..i + 1][..i] == items[..i];
      if IsShort(items[i]) {
        short := short + [items[i]];
      }
      i := i + 1;
    }
    assert items[..i] == items;
    ShortItemsMembers(items);
  }

  /** The titles named in the out-of-stock message. */
  function Titles(items: seq<Item>): (r: seq<string>)
    ensures |r| == |items|
    ensures forall i :: 0 <= i < |items| ==> r[i] == items[i].product.title
  {
    if |items| == 0 then [] else [items[0].product.title] + Titles(items[1..])
  }

  // ---------------------------------------------------------------------
  // Decrement

  /** `Math.max(0, stock - qty)` with both read through their defaults:
      stock `|| 0`, quantity `|| 1`. */
  function ClampedStock(stock: Num, quantity: int): (r: Num)
    ensures r.Finite? && r.n >= 0
  {
    var left := stock.OrElse(0) - IntOr(quantity, 1);
    Finite(if left < 0 then 0 else left)
  }

  /** The products an order's lines refer to. */
  function LineIds(lines: seq<OrderLine>): set<Id> {
    set i | 0 <= i < |lines| :: lines[i].productId
  }

  /** One iteration of the decrement loop: a missing product is skipped. */
  function DecrementLine(products: map<Id, Product>, line: OrderLine): (r: map<Id, Product>)
    ensures r.Keys == products.Keys
    ensures forall id :: id in products && id != line.productId ==> r[id] == products[id]
    ensures line.productId in products ==>
      var before := products[line.productId];
      var want := IntOr(line.quantity, 1);
      && r[line.productId] == before.(stock := r[line.productId].stock)
      && r[line.productId].stock == Finite(if before.stock.OrElse(0) >= want then before.stock.OrElse(0) - want else 0)
  {
    if line.productId in products then
      products[line.productId := products[line.productId].(stock := ClampedStock(products[line.productId].stock, line.quantity))]
    else products
  }

  /** The decrement loop over an order's lines, each product re-read after
      the previous save, so repeated products accumulate. */
  function Decrement(products: map<Id, Product>, lines: seq<OrderLine>): (r: map<Id, Product>)
    ensures r.Keys == products.Keys
    ensures forall id :: id in products && id !in LineIds(lines) ==> r[id] == products[id]
    ensures forall id :: id in products && id in LineIds(lines) ==>
      r[id].stock.Finite? && r[id].stock.n >= 0
    ensures forall id :: id in products ==>
      r[id] == products[id].(stock := r[id].stock)
  {
    if |lines| == 0 then products
    else
      assert forall i :: 1 <= i < |lines| ==> lines[i] == lines[1..][i - 1];
      assert LineIds(lines) == {lines[0].productId} + LineIds(lines[1..]) by {
        forall x | x in LineIds(lines) ensures x in {lines[0].productId} + LineIds(lines[1..]) {
          var k :| 0 <= k < |lines| && lines[k].productId == x;
          if k > 0 { assert lines[1..][k - 1].productId == x; }
        }
      }
      Decrement(DecrementLine(products, lines[0]), lines[1..])
  }

  /** What the lines ask of product `id`, each quantity read `|| 1`. */
  function Demand(lines: seq<OrderLine>, id: Id): int {
    if |lines| == 0 then 0
    else (if lines[0].productId == id then IntOr(lines[0].quantity, 1) else 0) + Demand(lines[1..], id)
  }

  /** With non-negative quantities the sequential clamps add up to one clamp
      of the whole demand: the stock ends at `max(0, stock - demand)`. */
  lemma {:induction false} DecrementExact(products: map<Id, Product>, lines: seq<OrderLine>, id: Id)
    requires forall i :: 0 <= i < |lines| ==> lines[i].quantity >= 0
    requires id in products && id in LineIds(lines)
    ensures Decrement(products, lines)[id].stock
      == Finite(if products[id].stock.OrElse(0) - Demand(lines, id) < 0 then 0
                else products[id].stock.OrElse(0) - Demand(lines, id))
  {
    var first := DecrementLine(products, lines[0]);
    var rest := lines[1..];
    assert forall i :: 1 <= i < |lines| ==> lines[i] == rest[i - 1];
    if id in LineIds(rest) {
      DecrementExact(first, rest, id);
      DemandNonNegative(rest, id);
    } else {
      DemandAbsent(rest, id);
      assert lines[0].productId == id by {
        var k :| 0 <= k < |lines| && lines[k].productId == id;
        if k > 0 { assert false; }
      }
    }
  }

  lemma {:induction false} DemandNonNegative(lines: seq<OrderLine>, id: Id)
    requires forall i :: 0 <= i < |lines| ==> lines[i].quantity >= 0
    ensures Demand(lines, id) >= 0
  {
    if |lines| > 0 {
      assert forall i :: 1 <= i < |lines| ==> lines[i] == lines[1..][i - 1];
      DemandNonNegative(lines[1..], id);
    }
  }

  lemma {:induction false} DemandAbsent(lines: seq<OrderLine>, id: Id)
    requires id !in LineIds(lines)
    ensures Demand(lines, id) == 0
  {
    if |lines| > 0 {
      assert lines[0].productId in LineIds(lines);
      assert LineIds(lines[1..]) <= LineIds(lines) by {
        forall x | x in LineIds(lines[1..]) ensures x in LineIds(lines) {
          var k :| 0 <= k < |lines[1..]| && lines[1..][k].productId == x;
          assert lines[k + 1].productId == x;
        }
      }
      DemandAbsent(lines[1..], id);
    }
  }
}

=== FILE: store.dfy ===
/**
 * The shop's database, abstracted as immutable values: products and users
 * keyed by id, orders keyed by id, the wishlist collection in insertion
 * order, and the counter that stands in for fresh document ids.
 */
module Store {
  import opened Wrappers
  import opened JsValues

  /** A document id. Mongo ObjectIds are modelled as naturals. */
  type Id = nat

  /** A catalog entry. `price` and `stock` are whatever the document holds,
      so either may be NaN for the handlers' `Number(...)` conversions. */
  datatype Product = Product(title: string, price: Num, stock: Num, isDeleted: bool)

  /** One line of a user's cart: its own sub-document id, the product it
      refers to and the requested quantity. */
  datatype CartEntry = CartEntry(id: Id, productId: Id, quantity: int)

  datatype User = User(role: string, cart: seq<CartEntry>)

  datatype PaymentMethod = CashOnDelivery | Card

  /** The status values the admin validator admits. */
  datatype OrderStatus = Pending | Processing | Shipped | Delivered | Cancelled | Refund

  /** An order line: the price is a snapshot taken when the order is placed. */
  datatype OrderLine = OrderLine(productId: Id, quantity: int, price: Num)

  /** An order as the handlers compute it. A freshly placed order has no
      status yet; the card-payment callback sets `Processing`. */
  datatype Order = Order(
    userId: Id,
    address: string,
    paymentMethod: PaymentMethod,
    lines: seq<OrderLine>,
    totalAmount: Num,
    payment: bool,
    status: Option<OrderStatus>)

  datatype WishList = WishList(
    id: Id,
    owner: Id,
    name: string,
    description: Option<string>,
    createdAt: int,
    products: seq<Id>)

  /** The whole database. `nextId` is the next id handed to a new order,
      wishlist or cart entry. */
  datatype Store = Store(
    products: map<Id, Product>,
    users: map<Id, User>,
    orders: map<Id, Order>,
    wishLists: seq<WishList>,
    nextId: nat)

  /** What a handler answers with instead of a success. */
  datatype Error =
    | ProductIdRequired            // 400 "Product ID is required in request body."
    | NotAuthorized                // 400 "Not Authorized"
    | UserNotFound                 // 404 "User not found."
    | CartEmpty                    // 400 "Cart is empty."
    | QuantityNotPositive          // 400 "The Quantity should be positive"
    | CartItemNotFound             // 400 "Cart item not found."
    | OutOfStock(titles: seq<string>)  // 400, naming every short product
    | InvalidPrice(name: string)   // 500, thrown while building payment items
    | DuplicateWishListName        // 400 "You already have a wishlist with this name."
    | WishListsNotFound            // 404 "One or both wishlists not found."
    | ProductNotInSource           // 400 "Product not found in the source wishlist."
    | Unexpected                   // 500, a property read on a missing document or a rejected save

  /** The HTTP status each error is answered with. */
  function StatusCode(e: Error): (code: nat)
    ensures 400 <= code < 600
    ensures code == 500 <==> e.InvalidPrice? || e.Unexpected?
    ensures code == 404 <==> e.UserNotFound? || e.WishListsNotFound?
  {
    match e
    case UserNotFound => 404
    case WishListsNotFound => 404
    case InvalidPrice(_) => 500
    case Unexpected => 500
    case _ => 400
  }

  /** `s` with user `uid`'s cart replaced. */
  function WithCart(s: Store, uid: Id, cart: seq<CartEntry>): (r: Store)
    requires uid in s.users
    ensures r.users.Keys == s.users.Keys
    ensures r.users[uid].cart == cart && r.users[uid].role == s.users[uid].role
    ensures forall u :: u in s.users && u != uid ==> r.users[u] == s.users[u]
    ensures r.products == s.products && r.orders == s.orders
    ensures r.wishLists == s.wishLists && r.nextId == s.nextId
  {
    s.(users := s.users[uid := s.users[uid].(cart := cart)])
  }
}

=== FILE: wishlist_validation.dfy ===
/**
 * The request validators written for the wishlist routes. They are not
 * mounted on those routes; the lemmas say what a request they pass
 * guarantees the handler. Ids are abstract, so the `isMongoId` format
 * checks have no counterpart here.
 */
module WishListValidation {
  import opened Wrappers
  import opened JsValues
  import opened Store
  import opened Seqs
  import opened Checks
  import opened WishLists

  datatype Violation =
    | NameRequired          // "Wishlist name is required."
    | NameLength            // "Wishlist name must be between 1-100 characters."
    | NameTaken             // "You already have a wishlist with this name."
    | OtherNameTaken        // "You already have another wishlist with this name."
    | DescriptionTooLong    // "Description must not exceed 500 characters."
    | ListNotFound          // "Wishlist not found or not authorized."
    | SourceRequired        // "Source wishlist ID is required."
    | SourceNotFound        // "Source wishlist not found or not authorized."
    | TargetRequired        // "Target wishlist ID is required."
    | TargetNotFound        // "Target wishlist not found or not authorized."
    | SameLists             // "Source and target wishlists cannot be the same."
    | ProductRequired       // "Product ID is required."
    | ProductUnknown        // "Product not found."
    | NotInSource           // "Product not found in the source wishlist."
    | NotInList             // "Product not found in this wishlist."
    | OnlyDefaultList       // "Cannot delete your only wishlist."

  /** `findOne({_id, userId})` for a body id that may be absent; an absent
      id finds nothing. */
  function FindOwnedOpt(ws: seq<WishList>, id: Option<Id>, owner: Id): (i: int)
    ensures -1 <= i < |ws|
    ensures id.None? ==> i == -1
    ensures id.Some? ==> i == FindOwned(ws, id.value, owner)
  {
    if id.None? then -1 else FindOwned(ws, id.value, owner)
  }

  /** The optional description chain: at most 500 characters. */
  function DescriptionViolations(description: Field): (r: seq<Violation>)
    ensures r == [] <==> description.Missing? || |description.text| <= 500
  {
    if description.Missing? then [] else Report(|description.text| <= 500, DescriptionTooLong)
  }

  // ---------------------------------------------------------------------
  // Creating a list

  /** `postWishListValidator`: the name must be present and 1 to 100
      characters before trimming, and the trimmed name not yet used by the
      user; the description is optional. */
  function PostViolations(s: Store, uid: Id, name: Field, description: Field): (r: seq<Violation>)
    ensures r == [] <==>
      && name.NotEmpty() && LengthIn(name.text, 1, 100)
      && !HasName(s.wishLists, uid, Trim(name.text))
      && (description.Missing? || |description.text| <= 500)
    ensures NameTaken in r <==> HasName(s.wishLists, uid, Trim(name.Text()))
  {
    Report(name.NotEmpty(), NameRequired)
      + Report(LengthIn(name.Text(), 1, 100), NameLength)
      + Report(!HasName(s.wishLists, uid, Trim(name.Text())), NameTaken)
      + DescriptionViolations(description)
  }

  /** The validator and the handler reject the same duplicate names; the
      validator still lets through a name of blanks only, which the handler
      then fails to save. */
  lemma PostValidatorAndHandler(s: Store, uid: Id, name: Field, description: Field, d: Option<string>, now: int)
    requires name.Given?
    ensures NameTaken in PostViolations(s, uid, name, description)
      <==> PostWishList(s, uid, name.text, d, now) == Err(DuplicateWishListName)
    ensures PostViolations(s, uid, name, description) == [] && Trim(name.text) != ""
      ==> PostWishList(s, uid, name.text, d, now).Ok?
  {
  }

  /** A name of one space passes the validator yet trims to nothing. */
  lemma BlankNamePassesValidator(s: Store, uid: Id, now: int)
    requires forall k :: 0 <= k < |s.wishLists| ==> s.wishLists[k].name != ""
    ensures PostViolations(s, uid, Given(" "), Missing) == []
    ensures PostWishList(s, uid, " ", None, now) == Err(Unexpected)
  {
    assert IsBlank(' ');
    assert Trim(" ") == "";
  }

  // ---------------------------------------------------------------------
  // Adding a product

  /** `postAddProductToWishListValidator`: the shared product-id chain. The
      move validator appends its source-membership check to that same chain
      object, so the add validator runs it too, against the `wishListId` of
      the body when there is one. */
  function AddProductViolations(s: Store, uid: Id, src: Option<Id>, p: Option<Id>): (r: seq<Violation>)
    ensures r == [] <==>
      && p.Some? && p.value in s.products
      && (FindOwnedOpt(s.wishLists, src, uid) == -1 || p.value in s.wishLists[FindOwnedOpt(s.wishLists, src, uid)].products)
    ensures src.None? ==> (r == [] <==> p.Some? && p.value in s.products)
  {
    var i := FindOwnedOpt(s.wishLists, src, uid);
    Report(p.Some?, ProductRequired)
      + Report(p.Some? && p.value in s.products, ProductUnknown)
      + Report(i == -1 || (p.Some? && p.value in s.wishLists[i].products), NotInSource)
  }

  /** The add validator and the add handler part when the body also names
      one of the user's lists: the validator refuses a product that list
      lacks, while the handler would add it to the user's oldest list. */
  lemma AddProductRefusedForForeignSource(s: Store, uid: Id, src: Id, p: Id, now: int)
    requires FindOwned(s.wishLists, src, uid) >= 0
    requires p in s.products && p !in s.wishLists[FindOwned(s.wishLists, src, uid)].products
    ensures AddProductViolations(s, uid, Some(src), Some(p)) == [NotInSource]
    ensures p in AddProductToWishList(s, uid, Some(p), now).value.wishLists[Oldest(s.wishLists, uid)].products
  {
  }

  // ---------------------------------------------------------------------
  // Moving a product

  /** `putWishListValidator`: both ids present and owned by the user, the
      target different from the source, the product present and existing,
      and, when the source is found, in the source. */
  function MoveViolations(s: Store, uid: Id, src: Option<Id>, dst: Option<Id>, p: Option<Id>): (r: seq<Violation>)
    ensures r == [] <==>
      && src.Some? && dst.Some? && p.Some? && src != dst
      && FindOwned(s.wishLists, src.value, uid) >= 0
      && FindOwned(s.wishLists, dst.value, uid) >= 0
      && p.value in s.products
      && p.value in s.wishLists[FindOwned(s.wishLists, src.value, uid)].products
    ensures SameLists in r <==> FindOwnedOpt(s.wishLists, dst, uid) >= 0 && dst == src
  {
    var ws := s.wishLists;
    var i := FindOwnedOpt(ws, src, uid);
    var j := FindOwnedOpt(ws, dst, uid);
    var source := Report(src.Some?, SourceRequired) + Report(i >= 0, SourceNotFound);
    var target := Report(dst.Some?, TargetRequired) + (if j == -1 then [TargetNotFound] else Report(dst != src, SameLists));
    var product := Report(p.Some?, ProductRequired) + Report(p.Some? && p.value in s.products, ProductUnknown)
      + Report(i == -1 || (p.Some? && p.value in ws[i].products), NotInSource);
    assert SameLists !in source && SameLists !in product;
    source + (target + product)
  }

  /** A move the validator passes succeeds, takes the product out of the
      source completely and leaves exactly one copy in the target: it rules
      out the same-list move, which fails after emptying the source of the
      product. */
  lemma MoveValidatorMeansMove(s: Store, uid: Id, src: Option<Id>, dst: Option<Id>, p: Option<Id>)
    requires MoveViolations(s, uid, src, dst, p) == []
    ensures MoveProduct(s, uid, src.value, dst.value, p.value).result.Ok?
    ensures var ws := MoveProduct(s, uid, src.value, dst.value, p.value).store.wishLists;
      && p.value !in ws[FindOwned(s.wishLists, src.value, uid)].products
      && Count(ws[FindOwned(s.wishLists, dst.value, uid)].products, p.value) == 1
  {
  }

  // ---------------------------------------------------------------------
  // Removing a product, deleting and renaming a list

  /** `deleteProductFromWishListValidator`: the list must be the user's,
      the product id present, and, when the list is found, in the list. */
  function RemoveProductViolations(s: Store, uid: Id, listId: Id, p: Option<Id>): (r: seq<Violation>)
    ensures r == [] <==>
      && FindOwned(s.wishLists, listId, uid) >= 0 && p.Some?
      && p.value in s.wishLists[FindOwned(s.wishLists, listId, uid)].products
  {
    var i := FindOwned(s.wishLists, listId, uid);
    Report(i >= 0, ListNotFound)
      + Report(p.Some?, ProductRequired)
      + Report(i == -1 || (p.Some? && p.value in s.wishLists[i].products), NotInList)
  }

  /** A removal the validator passes succeeds and shortens the list. */
  lemma RemoveValidatorMeansRemoval(s: Store, uid: Id, listId: Id, p: Option<Id>)
    requires RemoveProductViolations(s, uid, listId, p) == []
    ensures RemoveProduct(s, uid, listId, p.value).Ok?
    ensures var i := FindOwned(s.wishLists, listId, uid);
      |RemoveProduct(s, uid, listId, p.value).value.wishLists[i].products| < |s.wishLists[i].products|
  {
    var i := FindOwned(s.wishLists, listId, uid);
    CountPositiveIffIn(s.wishLists[i].products, p.value);
  }

  /** How many lists the user owns (`countDocuments({userId})`). */
  function OwnedCount(ws: seq<WishList>, owner: Id): (n: nat)
    ensures n <= |ws|
    ensures n == 0 <==> forall k :: 0 <= k < |ws| ==> ws[k].owner != owner
    ensures n == 1 <==> exists k :: 0 <= k < |ws| && ws[k].owner == owner && forall m :: 0 <= m < |ws| && ws[m].owner == owner ==> m == k
  {
    if |ws| == 0 then 0
    else
      assert forall k :: 1 <= k < |ws| ==> ws[k] == ws[1..][k - 1];
      (if ws[0].owner == owner then 1 else 0) + OwnedCount(ws[1..], owner)
  }

  /** `deleteWishListValidator`: the list must be the user's, and it must
      not be both the user's only list and named "Default". */
  function DeleteListViolations(s: Store, uid: Id, listId: Id): (r: seq<Violation>)
    ensures |r| <= 1
    ensures r == [ListNotFound] <==> FindOwned(s.wishLists, listId, uid) == -1
    ensures r == [OnlyDefaultList] <==>
      && FindOwned(s.wishLists, listId, uid) >= 0
      && OwnedCount(s.wishLists, uid) == 1
      && s.wishLists[FindOwned(s.wishLists, listId, uid)].name == DefaultName
    ensures r == [] <==>
      && FindOwned(s.wishLists, listId, uid) >= 0
      && (|| s.wishLists[FindOwned(s.wishLists, listId, uid)].name != DefaultName
          || exists k :: 0 <= k < |s.wishLists| && s.wishLists[k].owner == uid && k != FindOwned(s.wishLists, listId, uid))
  {
    var i := FindOwned(s.wishLists, listId, uid);
    if i == -1 then [ListNotFound]
    else Report(!(OwnedCount(s.wishLists, uid) == 1 && s.wishLists[i].name == DefaultName), OnlyDefaultList)
  }

  /** A sole list that is not called "Default" may go, so the validator
      does not keep every user with a list. */
  lemma SoleNamedListIsDeletable(s: Store, uid: Id, listId: Id)
    requires FindOwned(s.wishLists, listId, uid) >= 0
    requires s.wishLists[FindOwned(s.wishLists, listId, uid)].name != DefaultName
    ensures DeleteListViolations(s, uid, listId) == []
  {
  }

  /** With distinct ids, a deletion the validator passes is one the handler
      performs. */
  lemma DeleteValidatorMeansDeletion(s: Store, uid: Id, listId: Id)
    requires IdsFresh(s.wishLists, s.nextId)
    requires DeleteListViolations(s, uid, listId) == []
    ensures DeleteWishList(s, uid, listId).Ok?
  {
    var i := FindOwned(s.wishLists, listId, uid);
    var j := FindById(s.wishLists, listId);
    assert j >= 0;
    assert i == j;
  }

  /** Another list of the user, not `listId`, is already called `n`. */
  predicate OtherListNamed(ws: seq<WishList>, uid: Id, listId: Id, n: string) {
    exists k :: 0 <= k < |ws| && ws[k].owner == uid && ws[k].name == n && ws[k].id != listId
  }

  /** `updateWishListValidator`: the list must be the user's; an optional
      name of 1 to 100 characters that, once trimmed and non-empty, no
      other list of the user carries; an optional description. */
  function RenameViolations(s: Store, uid: Id, listId: Id, name: Field, description: Field): (r: seq<Violation>)
    ensures OtherNameTaken in r <==>
      name.Given? && Trim(name.text) != "" && OtherListNamed(s.wishLists, uid, listId, Trim(name.text))
    ensures r == [] ==> FindOwned(s.wishLists, listId, uid) >= 0
    ensures r == [] <==>
      && FindOwned(s.wishLists, listId, uid) >= 0
      && (|| name.Missing?
          || (LengthIn(name.text, 1, 100) && (Trim(name.text) == "" || !OtherListNamed(s.wishLists, uid, listId, Trim(name.text)))))
      && (description.Missing? || |description.text| <= 500)
  {
    var owned := Report(FindOwned(s.wishLists, listId, uid) >= 0, ListNotFound);
    var nameChecks :=
      if name.Missing? then []
      else
        var n := Trim(name.text);
        Report(LengthIn(name.text, 1, 100), NameLength)
          + Report(n == "" || !OtherListNamed(s.wishLists, uid, listId, n), OtherNameTaken);
    var described := DescriptionViolations(description);
    assert OtherNameTaken !in owned && OtherNameTaken !in described;
    owned + (nameChecks + described)
  }

  /** Renaming a list to the name it already has is not a clash with
      itself: the lookup leaves the list being renamed out. */
  lemma RenameToOwnNameAllowed(s: Store, uid: Id, i: nat)
    requires WishLists.Valid(s)
    requires i < |s.wishLists| && s.wishLists[i].owner == uid
    requires IsTrimmed(s.wishLists[i].name) && 1 <= |s.wishLists[i].name| <= 100
    ensures RenameViolations(s, uid, s.wishLists[i].id, Given(s.wishLists[i].name), Missing) == []
  {
    var ws := s.wishLists;
    var w := ws[i];
    TrimmedIsFixpoint(w.name);
    var f := FindOwned(ws, w.id, uid);
    assert f >= 0;
    assert forall k :: 0 <= k < |ws| && ws[k].owner == uid && ws[k].name == w.name ==> k == i;
  }
}

=== FILE: wishlists.dfy ===
/**
 * Wishlists: creating a named list, adding a product to the user's oldest
 * list, moving a product between two lists, removing a product, and
 * deleting a list.
 */
module WishLists {
  import opened Wrappers
  import opened JsValues
  import opened Store
  import opened Seqs

  /** The name of the list created when a user without lists adds a product. */
  const DefaultName: string := "Default"

  /** `WishList.findOne({_id: id, userId: owner})`: the first list with this
      id owned by `owner`, or -1. */
  function FindOwned(ws: seq<WishList>, id: Id, owner: Id): (i: int)
    ensures -1 <= i < |ws|
    ensures i >= 0 ==> ws[i].id == id && ws[i].owner == owner
    ensures i == -1 <==> forall k :: 0 <= k < |ws| ==> !(ws[k].id == id && ws[k].owner == owner)
  {
    if |ws| == 0 then -1
    else if ws[0].id == id && ws[0].owner == owner then 0
    else
      var j := FindOwned(ws[1..], id, owner);
      assert forall k :: 1 <= k < |ws| ==> ws[k] == ws[1..][k - 1];
      if j == -1 then -1 else j + 1
  }

  /** `WishList.findById(id)`: the first list with this id, or -1. */
  function FindById(ws: seq<WishList>, id: Id): (i: int)
    ensures -1 <= i < |ws|
    ensures i >= 0 ==> ws[i].id == id
    ensures i >= 0 ==> forall k :: 0 <= k < i ==> ws[k].id != id
    ensures i == -1 <==> forall k :: 0 <= k < |ws| ==> ws[k].id != id
  {
    if |ws| == 0 then -1
    else if ws[0].id == id then 0
    else
      var j := FindById(ws[1..], id);
      assert forall k :: 1 <= k < |ws| ==> ws[k] == ws[1..][k - 1];
      if j == -1 then -1 else j + 1
  }

  /** `find({userId}).sort({createdAt: 1}).limit(1)`: the user's list with
      the smallest `createdAt`, the earliest stored one among equals; -1
      when the user has no list. */
  function Oldest(ws: seq<WishList>, owner: Id): (i: int)
    ensures -1 <= i < |ws|
    ensures i == -1 <==> forall k :: 0 <= k < |ws| ==> ws[k].owner != owner
    ensures i >= 0 ==> ws[i].owner == owner
    ensures i >= 0 ==> forall k :: 0 <= k < |ws| && ws[k].owner == owner ==> ws[i].createdAt <= ws[k].createdAt
    ensures i >= 0 ==> forall k :: 0 <= k < i && ws[k].owner == owner ==> ws[i].createdAt < ws[k].createdAt
  {
    if |ws| == 0 then -1
    else
      var n := |ws| - 1;
      var j := Oldest(ws[..n], owner);
      assert forall k :: 0 <= k < n ==> ws[k] == ws[..n][k];
      if ws[n].owner == owner && (j == -1 || ws[n].createdAt < ws[j].createdAt) then n else j
  }

  /** The user already has a list called `name`. */
  predicate HasName(ws: seq<WishList>, owner: Id, name: string) {
    exists k :: 0 <= k < |ws| && ws[k].owner == owner && ws[k].name == name
  }

  // ---------------------------------------------------------------------
  // The invariant the handlers keep

  /** Ids are distinct and were all handed out before `next`. */
  predicate IdsFresh(ws: seq<WishList>, next: nat) {
    && (forall k :: 0 <= k < |ws| ==> ws[k].id < next)
    && (forall a, b :: 0 <= a < b < |ws| ==> ws[a].id != ws[b].id)
  }

  /** No user has two lists of the same name. */
  predicate NamesUnique(ws: seq<WishList>) {
    forall a, b :: 0 <= a < b < |ws| && ws[a].owner == ws[b].owner ==> ws[a].name != ws[b].name
  }

  /** No list holds a product twice. */
  predicate ProductsDistinct(ws: seq<WishList>) {
    forall k :: 0 <= k < |ws| ==> Distinct(ws[k].products)
  }

  predicate Valid(s: Store) {
    IdsFresh(s.wishLists, s.nextId) && NamesUnique(s.wishLists) && ProductsDistinct(s.wishLists)
  }

  // ---------------------------------------------------------------------
  // Handlers

  /** POST /api/wishlist: a user may not have two lists with the same
      (trimmed) name; a name that trims to nothing fails the schema's
      `required` on save. A new list starts empty. */
  function PostWishList(s: Store, uid: Id, name: string, description: Option<string>, now: int): (r: Result<Store, Error>)
    ensures HasName(s.wishLists, uid, Trim(name)) ==> r == Err(DuplicateWishListName)
    ensures !HasName(s.wishLists, uid, Trim(name)) && Trim(name) == "" ==> r == Err(Unexpected)
    ensures r.Ok? <==> !HasName(s.wishLists, uid, Trim(name)) && Trim(name) != ""
    ensures r.Ok? ==> r.value == s.(wishLists := s.wishLists + [WishList(s.nextId, uid, Trim(name), description, now, [])],
                                     nextId := s.nextId + 1)
  {
    var n := Trim(name);
    if HasName(s.wishLists, uid, n) then Err(DuplicateWishListName)
    else if n == "" then Err(Unexpected)
    else Ok(s.(wishLists := s.wishLists + [WishList(s.nextId, uid, n, description, now, [])], nextId := s.nextId + 1))
  }

  /** POST /api/wishlist/product: with no list in the whole collection, or
      none of this user's, a "Default" list holding just the product is
      created; otherwise the product joins the user's oldest list, which is
      rewritten through a `Set` and so also loses any duplicates. Without a
      product id the new list fails the schema's `required` on save, and the
      existing one makes `productId.toString()` throw: nothing is written. */
  function AddProductToWishList(s: Store, uid: Id, p: Option<Id>, now: int): (r: Result<Store, Error>)
    ensures p.None? ==> r == Err(Unexpected)
    ensures r.Ok? <==> p.Some?
    ensures r.Ok? ==> r.value.products == s.products && r.value.users == s.users && r.value.orders == s.orders
    ensures p.Some? && Oldest(s.wishLists, uid) == -1 ==>
      r == Ok(s.(wishLists := s.wishLists + [WishList(s.nextId, uid, DefaultName, None, now, [p.value])],
                 nextId := s.nextId + 1))
    ensures p.Some? && Oldest(s.wishLists, uid) >= 0 ==>
      var i := Oldest(s.wishLists, uid);
      && r.value.nextId == s.nextId
      && |r.value.wishLists| == |s.wishLists|
      && r.value.wishLists[i] == s.wishLists[i].(products := WithProduct(s.wishLists[i].products, p.value))
      && (forall k :: 0 <= k < |s.wishLists| && k != i ==> r.value.wishLists[k] == s.wishLists[k])
  {
    var ws := s.wishLists;
    if p.None? then Err(Unexpected)
    else
      var created := WishList(s.nextId, uid, DefaultName, None, now, [p.value]);
      if |ws| == 0 then
        Ok(s.(wishLists := ws + [created], nextId := s.nextId + 1))
      else
        var i := Oldest(ws, uid);
        if i == -1 then
          Ok(s.(wishLists := ws + [created], nextId := s.nextId + 1))
        else
          Ok(s.(wishLists := ws[i := ws[i].(products := WithProduct(ws[i].products, p.value))]))
  }

  /** `[...new Set([...products, productId])]`: the list with the product
      appended unless present, and every later duplicate dropped. */
  function WithProduct(before: seq<Id>, p: Id): (after: seq<Id>)
    ensures Distinct(after) && Count(after, p) == 1
    ensures forall x :: x in after <==> x in before || x == p
    ensures p !in before && Distinct(before) ==> after == before + [p]
    ensures p in before ==> after == Dedup(before)
  {
    var after := Dedup(before + [p]);
    DedupSnoc(before, p);
    DistinctCountOne(after, p);
    if Distinct(before) then DedupOfDistinct(before); after else after
  }

  /** Adding a product the oldest list already holds leaves a duplicate-free
      list exactly as it was. */
  lemma AddPresentProductIsNoOp(s: Store, uid: Id, p: Id, now: int)
    requires Oldest(s.wishLists, uid) >= 0
    requires p in s.wishLists[Oldest(s.wishLists, uid)].products
    requires Distinct(s.wishLists[Oldest(s.wishLists, uid)].products)
    ensures AddProductToWishList(s, uid, Some(p), now) == Ok(s)
  {
    var i := Oldest(s.wishLists, uid);
    DedupOfDistinct(s.wishLists[i].products);
    assert s.wishLists[i := s.wishLists[i]] == s.wishLists;
  }

  /** A move's answer together with the store it leaves behind: the source
      list is saved before the target, and a failing second save does not
      undo the first. A successful answer tells whether the target already
      held the product. */
  datatype Moved = Moved(store: Store, result: Result<bool, Error>)

  /** Both lists are the user's and the product is in the source. */
  predicate InBothLists(ws: seq<WishList>, uid: Id, src: Id, dst: Id, p: Id) {
    && FindOwned(ws, src, uid) >= 0 && FindOwned(ws, dst, uid) >= 0
    && p in ws[FindOwned(ws, src, uid)].products
  }

  /** PUT /api/wishlist: both lists must be the user's; the product must be
      in the source. The source is saved without it, then the target as it
      was read, plus the product, through a `Set`. When source and target
      are the same list, that second save writes a stale copy: replacing a
      whole array bumps the document's version, so the stale save matches
      no document and is rejected, after the product already left the
      list. */
  function MoveProduct(s: Store, uid: Id, src: Id, dst: Id, p: Id): (r: Moved)
    ensures FindOwned(s.wishLists, src, uid) == -1 || FindOwned(s.wishLists, dst, uid) == -1
      ==> r == Moved(s, Err(WishListsNotFound))
    ensures FindOwned(s.wishLists, src, uid) >= 0 && FindOwned(s.wishLists, dst, uid) >= 0
      && p !in s.wishLists[FindOwned(s.wishLists, src, uid)].products
      ==> r == Moved(s, Err(ProductNotInSource))
    ensures r.result.Ok? <==> InBothLists(s.wishLists, uid, src, dst, p) && src != dst
    ensures r.result.Err? && r.store != s ==> src == dst && r.result == Err(Unexpected)
    ensures InBothLists(s.wishLists, uid, src, dst, p) ==>
      var ws := s.wishLists;
      var i := FindOwned(ws, src, uid);
      var j := FindOwned(ws, dst, uid);
      var ws' := r.store.wishLists;
      && r.store == s.(wishLists := ws')
      && |ws'| == |ws|
      && (forall k :: 0 <= k < |ws| && k != i && k != j ==> ws'[k] == ws[k])
      && ws'[i] == ws[i].(products := RemoveAll(ws[i].products, p))
      && p !in ws'[i].products
      && (src != dst ==>
            && ws'[j] == ws[j].(products := WithProduct(ws[j].products, p))
            && r.result == Ok(p in ws[j].products))
  {
    var ws := s.wishLists;
    var i := FindOwned(ws, src, uid);
    var j := FindOwned(ws, dst, uid);
    if i == -1 || j == -1 then Moved(s, Err(WishListsNotFound))
    else if p !in ws[i].products then Moved(s, Err(ProductNotInSource))
    else
      var ws1 := ws[i := ws[i].(products := RemoveAll(ws[i].products, p))];
      if src == dst then Moved(s.(wishLists := ws1), Err(Unexpected))
      else
        assert i != j;
        var target := WithProduct(ws[j].products, p);
        Moved(s.(wishLists := ws1[j := ws[j].(products := target)]), Ok(p in ws[j].products))
  }

  /** Moving a product within one list takes it out of the list and answers
      with a failure. */
  lemma SameListMoveLosesProduct(s: Store, uid: Id, l: Id, p: Id)
    requires FindOwned(s.wishLists, l, uid) >= 0
    requires p in s.wishLists[FindOwned(s.wishLists, l, uid)].products
    ensures MoveProduct(s, uid, l, l, p).result == Err(Unexpected)
    ensures p !in MoveProduct(s, uid, l, l, p).store.wishLists[FindOwned(s.wishLists, l, uid)].products
  {
  }

  /** DELETE /api/wishlist/product/:wishListId: every occurrence of the
      product goes, the others keep their order. The list is looked up with
      the owner, and a miss is a property read on null. */
  function RemoveProduct(s: Store, uid: Id, listId: Id, p: Id): (r: Result<Store, Error>)
    ensures FindOwned(s.wishLists, listId, uid) == -1 ==> r == Err(Unexpected)
    ensures r.Ok? <==> FindOwned(s.wishLists, listId, uid) >= 0
    ensures r.Ok? ==>
      var ws := s.wishLists;
      var i := FindOwned(ws, listId, uid);
      && i >= 0
      && r.value == s.(wishLists := ws[i := ws[i].(products := RemoveAll(ws[i].products, p))])
      && p !in r.value.wishLists[i].products
      && (forall x :: x != p ==> (x in r.value.wishLists[i].products <==> x in ws[i].products))
  {
    var i := FindOwned(s.wishLists, listId, uid);
    if i == -1 then Err(Unexpected)
    else Ok(s.(wishLists := s.wishLists[i := s.wishLists[i].(products := RemoveAll(s.wishLists[i].products, p))]))
  }

  /** DELETE /api/wishlist/:wishListId: a missing list, or another user's,
      is "Not Authorized"; otherwise that list is removed and the others keep
      their order. */
  function DeleteWishList(s: Store, uid: Id, listId: Id): (r: Result<Store, Error>)
    ensures r.Err? <==>
      FindById(s.wishLists, listId) == -1 || s.wishLists[FindById(s.wishLists, listId)].owner != uid
    ensures r.Err? ==> r.error == NotAuthorized
    ensures r.Ok? ==>
      var ws := s.wishLists;
      var i := FindById(ws, listId);
      && r.value == s.(wishLists := ws[..i] + ws[i + 1..])
      && |r.value.wishLists| == |ws| - 1
      && (IdsFresh(ws, s.nextId) ==> forall k :: 0 <= k < |r.value.wishLists| ==> r.value.wishLists[k].id != listId)
  {
    var ws := s.wishLists;
    var i := FindById(ws, listId);
    if i == -1 || ws[i].owner != uid then Err(NotAuthorized)
    else
      var rest := ws[..i] + ws[i + 1..];
      assert forall k :: 0 <= k < |rest| ==> rest[k] == (if k < i then ws[k] else ws[k + 1]);
      Ok(s.(wishLists := rest))
  }

  // ---------------------------------------------------------------------
  // Every handler keeps the invariant

  /** Appending a fresh list whose name its owner does not use yet keeps the
      invariant. */
  lemma AppendKeepsValid(ws: seq<WishList>, next: nat, w: WishList)
    requires IdsFresh(ws, next) && NamesUnique(ws) && ProductsDistinct(ws)
    requires w.id == next && Distinct(w.products)
    requires forall k :: 0 <= k < |ws| && ws[k].owner == w.owner ==> ws[k].name != w.name
    ensures IdsFresh(ws + [w], next + 1) && NamesUnique(ws + [w]) && ProductsDistinct(ws + [w])
  {
    var ws' := ws + [w];
    assert forall k :: 0 <= k < |ws| ==> ws'[k] == ws[k];
  }

  lemma PostWishListPreservesValid(s: Store, uid: Id, name: string, description: Option<string>, now: int)
    requires Valid(s)
    ensures PostWishList(s, uid, name, description, now).Ok? ==> Valid(PostWishList(s, uid, name, description, now).value)
  {
    var r := PostWishList(s, uid, name, description, now);
    if r.Ok? {
      var w := WishList(s.nextId, uid, Trim(name), description, now, []);
      AppendKeepsValid(s.wishLists, s.nextId, w);
    }
  }

  lemma AddProductPreservesValid(s: Store, uid: Id, p: Option<Id>, now: int)
    requires Valid(s)
    ensures AddProductToWishList(s, uid, p, now).Ok? ==> Valid(AddProductToWishList(s, uid, p, now).value)
  {
    if p.Some? {
      var ws := AddProductToWishList(s, uid, p, now).value.wishLists;
      var n := |s.wishLists|;
      if Oldest(s.wishLists, uid) == -1 {
        AppendKeepsValid(s.wishLists, s.nextId, WishList(s.nextId, uid, DefaultName, None, now, [p.value]));
      } else {
        assert forall k :: 0 <= k < n ==>
          (ws[k].name, ws[k].owner, ws[k].id) == (s.wishLists[k].name, s.wishLists[k].owner, s.wishLists[k].id);
      }
    }
  }

  /** A move keeps the invariant, also when it fails after saving the
      source. */
  lemma MovePreservesValid(s: Store, uid: Id, src: Id, dst: Id, p: Id)
    requires Valid(s)
    ensures Valid(MoveProduct(s, uid, src, dst, p).store)
  {
    var r := MoveProduct(s, uid, src, dst, p);
    var ws := s.wishLists;
    var i := FindOwned(ws, src, uid);
    var j := FindOwned(ws, dst, uid);
    if i >= 0 && j >= 0 && p in ws[i].products {
      var ws' := r.store.wishLists;
      RemoveAllDistinct(ws[i].products, p);
      forall k | 0 <= k < |ws'|
        ensures SameHeader(ws'[k], ws[k]) && Distinct(ws'[k].products)
      {
        if k != i && k != j {
          assert ws'[k] == ws[k];
        }
      }
      SameHeadersKeepValid(ws, ws', s.nextId);
    }
  }

  lemma RemoveProductPreservesValid(s: Store, uid: Id, listId: Id, p: Id)
    requires Valid(s)
    ensures RemoveProduct(s, uid, listId, p).Ok? ==> Valid(RemoveProduct(s, uid, listId, p).value)
  {
    var r := RemoveProduct(s, uid, listId, p);
    if r.Ok? {
      var ws := s.wishLists;
      var i := FindOwned(ws, listId, uid);
      RemoveAllDistinct(ws[i].products, p);
      var ws' := r.value.wishLists;
      forall k | 0 <= k < |ws'|
        ensures SameHeader(ws'[k], ws[k]) && Distinct(ws'[k].products)
      {
        if k != i {
          assert ws'[k] == ws[k];
        }
      }
      SameHeadersKeepValid(ws, ws', s.nextId);
    }
  }

  /** Same id, owner and name. */
  predicate SameHeader(a: WishList, b: WishList) {
    a.id == b.id && a.owner == b.owner && a.name == b.name
  }

  /** Changing only the products of lists, keeping each duplicate-free,
      keeps the invariant. */
  lemma SameHeadersKeepValid(ws: seq<WishList>, ws': seq<WishList>, next: nat)
    requires IdsFresh(ws, next) && NamesUnique(ws) && ProductsDistinct(ws)
    requires |ws'| == |ws|
    requires forall k :: 0 <= k < |ws'| ==> SameHeader(ws'[k], ws[k]) && Distinct(ws'[k].products)
    ensures IdsFresh(ws', next) && NamesUnique(ws') && ProductsDistinct(ws')
  {
  }

  lemma DeletePreservesValid(s: Store, uid: Id, listId: Id)
    requires Valid(s)
    ensures DeleteWishList(s, uid, listId).Ok? ==> Valid(DeleteWishList(s, uid, listId).value)
  {
    if DeleteWishList(s, uid, listId).Ok? {
      RemoveAtKeepsValid(s.wishLists, s.nextId, FindById(s.wishLists, listId));
    }
  }

  /** Dropping one list keeps the invariant. */
  lemma RemoveAtKeepsValid(ws: seq<WishList>, next: nat, i: nat)
    requires i < |ws|
    requires IdsFresh(ws, next) && NamesUnique(ws) && ProductsDistinct(ws)
    ensures var rest := ws[..i] + ws[i + 1..];
      IdsFresh(rest, next) && NamesUnique(rest) && ProductsDistinct(rest)
  {
    var rest := ws[..i] + ws[i + 1..];
    assert forall k :: 0 <= k < |rest| ==> rest[k] == ws[if k < i then k else k + 1];
  }
}

=== FILE: wrappers.dfy ===
/** Failure-carrying result types shared by every handler of the shop model. */
module Wrappers {

  /** A value that may be absent: a missing request field, a missing document. */
  datatype Option<+T> = None | Some(value: T)

  /** Either the new state a handler produces or the error it answers with. */
  datatype Result<+T, +E> = Ok(value: T) | Err(error: E)
}
